=== FILE: README.md ===
# Pac-Man game rules in Dafny

This project models the game rules of the `PacmanGame` React component
(`src/components/PacmanGame.jsx`). The component runs a single-player maze
game on a fixed 21 x 19 grid of 22-unit tiles. Its code encodes these rules:

- Pac-Man takes a queued direction at tile-aligned moments, moves only where the
  wall test allows, and eats the pellet under his centre.
- Each ghost picks a new heading near a tile centre: towards Pac-Man, or at
  random while frightened by a power pellet.
- A collision costs a life, or scores 200 if the ghost is frightened.
- The game ends when the board is cleared or the last life is lost.

As written, most of these rules never take effect. Pac-Man spawns inside a wall,
so he never moves, eats or is caught, and the ghosts' near-centre test misses
the tile centres (see "The game as written never gets going" and "## Findings"
below). The model states each rule for any session and separately proves what
the code as written does from the initial session.

The model is functional: a `Session` record (board overlay, score, lives,
remaining-pellet counter, play state, message, Pac-Man, ghosts) and pure
functions for each rule step.

- `grid.dfy` (module `Grid`): the static `LEVEL` and the collectible
  overlay. It also holds the reference pellet count and the counting loop.
- `motion.dfy` (module `Motion`): the pieces of movement and contact.
  - directions, and the wall test `canMove`, with its meaning proved;
  - the tunnel wrap;
  - the hit-box overlap;
  - the near-tile-centre tests.
- `agents.dfy` (module `Agents`): the agents and their moves.
  - Pac-Man's turn and step;
  - the ghosts' turn choices and direction choice;
  - the frightened countdown;
  - the ghost frame.
- `session.dfy` (module `Game`): everything that acts on the session.
  - eating, the collision outcomes, life loss, respawn, restart;
  - one `update`, the frame gate of `loop`, and the key handler;
  - the invariant `Valid` that every reachable session keeps.

### How the source is read

- **Numbers.**
  - Positions are exact reals.
  - `Math.floor` is `.Floor`, and `Math.round(v)` is `floor(v + 0.5)`.
  - `Math.hypot` comparisons become comparisons of squared distances, which
    order points the same way.
- **Time.** The time step arrives as a parameter, and the step length is
  `speed * dt / (1000 / 60)`.
- **Randomness.** Each ghost's `Math.random()` draw is a parameter in [0, 1).
- **State updates.** React state setters are taken as applied at once and in
  order.
- **The ghost loop after a respawn.** When a life is lost with lives left,
  `resetPositions` replaces `pacRef.current` and `ghostsRef.current`, but
  `forEach` keeps walking the old ghost array.
  - The model carries a `detached` flag, so the remaining old ghosts still
    move and collide, against the frame's own `pac` object.
  - Their score and life effects apply.
  - Their new positions are not stored.

### The ghosts' near-centre test

A ghost turns only when the source judges it close to a tile centre. The code
computes that centre wrongly (see Findings), so the ghost frame exists twice:

- `Agents.GhostStepAsWritten` applies the test exactly as written.
- `Agents.GhostStep` applies the corrected test.

`Game.Update` takes a `CentreTest` selector (`AsWritten` or `Corrected`) and
hands it to the ghost pass `Game.PassFrom`. `Game.Frame`, the model of the
animation loop, always runs `AsWritten`, so frames behave as the code does.
The rest of the session model holds under either test.

### The game as written never gets going

Pac-Man's spawn, tile (column 9, row 15), is a wall in `LEVEL`. Three facts
follow:

- **Pac-Man cannot move.** Every move from there shorter than half a tile, in
  either direction, is refused (`Agents.PacStuckAtSpawn`). A step of at most
  32 ms either way moves at most 4.224 units.
- **Nothing is eaten.** The wall tile under him holds no pellet
  (`Game.NothingToEatAtSpawn`).
- **No ghost reaches him.** Any ghost box close enough to touch his would
  cover that wall tile (`Agents.NoHitAtSpawn`).

So the initial session stays `Frozen` through every key press and every frame
whose timestamp is at most 32 ms earlier than the previous one
(`Game.UpdateFrozen`, `Game.FrameFrozen`, `Game.PressFrozen`): score 0, three
lives, a full board, play running. `Game.UpdateFrozen` holds under both ghost
tests.

The intended spawn tile cannot be read from the code, so this is modelled as
written rather than corrected. The rest of the model does not depend on it.

### Behaviour worth noting

- **Ghost directions after a respawn.** `resetPositions` gives the ghosts their
  original headings (right, left, down, up) again.
- **The frame in which the last life is lost.** The ghost pass of that frame still runs to
  the end. Later ghosts can still collide, so lives can go below zero and a
  cleared-board message can be overwritten by the loss message.
- **Negative time steps.** `loop` takes `Math.min(32, now - last)` with no lower
  bound. `last` is read with `performance.now()` whenever the animation effect
  starts, and the first frame timestamp can be earlier than that. Such a frame
  runs `update` with a negative step, which moves every agent backwards.
  `Game.FrameDt` and `Game.Frame` accept any times.
- **Restart.** The restart key is not accepted, because it throws (see
  Findings).

## Model

| member | source | states |
|---|---|---|
| Grid.CountPellets | src/components/PacmanGame.jsx:84-91 | the mount-time nested loop counts exactly the cells holding 2 or 3 |
| Grid.PelletsCleared | src/components/PacmanGame.jsx:139-146 | clearing one collectible cell lowers the number of collectibles by exactly one, so the incremental counter stays equal to a recount |
| Grid.Landmarks | src/components/PacmanGame.jsx:18-32 | LEVEL has a wall at row 15, column 9, open floor in the ghost house (row 10, columns 8-10, and row 9, column 9) and a power pellet at row 1, column 1 |
| Grid.LevelOverlay | src/components/PacmanGame.jsx:66 | the board the game starts from, a copy of LEVEL, satisfies the overlay relation |
| Grid.OverlayCleared | src/components/PacmanGame.jsx:139-146 | setting a collectible cell to 0 keeps the board 21 x 19 and keeps it differing from LEVEL only by eaten items |
| Grid.PelletsZero | src/components/PacmanGame.jsx:153-155 | the collectible count is zero exactly when no cell holds a 2 or a 3, so the win test means the board is cleared |
| Motion.RowClearIff | src/components/PacmanGame.jsx:127-130 | the inner scan approves a row segment iff every cell in it is inside the grid and not a wall |
| Motion.BoxClearIff | src/components/PacmanGame.jsx:126-131 | the nested scan approves the tile box iff every tile in it is inside the grid and not a wall of the static LEVEL |
| Motion.CanMoveIff | src/components/PacmanGame.jsx:114-133 | canMove(nx, ny) holds iff every tile with row in [floor((ny-8)/22), floor((ny+8)/22)] and column in [floor((nx-8)/22), floor((nx+8)/22)] is in the 21 x 19 grid and not a wall; the mutable overlay is never read, so eating cannot change it |
| Motion.WallUnderBox | src/components/PacmanGame.jsx:126-131 | a wall or out-of-grid tile anywhere in the box's tile range makes the wall test fail |
| Motion.CentreApproved | src/components/PacmanGame.jsx:217-219 | at a tile centre the wall test approves exactly when that tile is open |
| Motion.CanMoveBounds | src/components/PacmanGame.jsx:121-128 | every approved centre lies in the field: 8 <= x < 410 and 8 <= y < 454 |
| Motion.WrapIdle | src/components/PacmanGame.jsx:231-234 | the tunnel wrap never fires on an approved x, because 8 <= x < 410 is far from both wrap edges |
| Motion.HitBoxesIffNear | src/components/PacmanGame.jsx:315 | the strict rectIntersects test on the 16- and 18-unit boxes holds exactly when both centre offsets are under 17 |
| Motion.AsWrittenMissesCentreRows | src/components/PacmanGame.jsx:272-274 | as written, a ghost whose y is a tile centre is never near a centre: the rounded multiple plus half a tile lies 22 units away |
| Motion.AsWrittenMissesCentreColumns | src/components/PacmanGame.jsx:272-274 | the same for a ghost whose x is a tile centre |
| Motion.CorrectedHitsCentres | src/components/PacmanGame.jsx:272-274 | the corrected test (centre of the containing tile) accepts every tile centre |
| Agents.Advance | src/components/PacmanGame.jsx:249-257 | an approved step lands exactly on (x + dx * speed, y + dy * speed) and keeps the heading; a refused step keeps the position and sets the heading to (0,0) for Pac-Man (Stop) or to its negation for a ghost (Bounce) |
| Agents.PacTurn | src/components/PacmanGame.jsx:236-246 | the heading becomes the queued direction exactly when Pac-Man is near a half-tile point and the centre one tile along the queued direction is approved; otherwise it is kept |
| Agents.PacStep | src/components/PacmanGame.jsx:230-257 | Pac-Man's frame keeps the queued direction; when the point one step ahead along the turned heading is approved he lands exactly there with that heading, otherwise he stays at the wrapped position with heading (0,0); he stays in the field with unit headings |
| Agents.SpawnInWall | src/components/PacmanGame.jsx:71 | the spawn point (209, 341) is not approved: its tile (15, 9) is a wall |
| Agents.NearSpawnBlocked | src/components/PacmanGame.jsx:114-133 | every centre with 192 < x < 226 and 324 < y < 358 is refused, because its box covers the wall tile (15, 9) |
| Agents.PacStuckAtSpawn | src/components/PacmanGame.jsx:249-257 | from the spawn, whatever the headings, a step shorter than 11 units in either direction is refused: Pac-Man stays and his heading becomes (0,0) |
| Agents.BlockedNearSpawn | src/components/PacmanGame.jsx:249-251 | every point less than half a tile from the spawn along an axis, in either direction, is refused by the wall test |
| Agents.NoHitAtSpawn | src/components/PacmanGame.jsx:315 | no ghost on an approved point overlaps Pac-Man at the spawn |
| Agents.EligibleIsApprovedStep | src/components/PacmanGame.jsx:216-219 | the model's eligibility test (not the reverse, neighbour tile open) is exactly the source's test of the neighbour centre with canMove |
| Agents.OrderedCons | src/components/PacmanGame.jsx:215 | prefixing a direction that comes earlier than all the others keeps the list in enumeration order |
| Agents.EligibleFrom | src/components/PacmanGame.jsx:215-220 | the scan from option i returns only eligible unit directions at or after i, includes every eligible one, and keeps enumeration order |
| Agents.TurnChoices | src/components/PacmanGame.jsx:205-223 | chooseTurnChoices is never empty, and it is exactly [reverse of the heading] iff no option is eligible |
| Agents.ChoicesAreLegalTurns | src/components/PacmanGame.jsx:205-223 | away from a dead end the choices are exactly the eligible non-reversing directions, each once, in the order right, left, down, up |
| Agents.ChoicesAreDirs | src/components/PacmanGame.jsx:221 | every choice is a unit direction or zero when the heading is |
| Agents.ArgMinFrom | src/components/PacmanGame.jsx:284-292 | the strict-less scan ends at the first index of a minimum |
| Agents.ArgMin | src/components/PacmanGame.jsx:283-292 | the chosen index holds a minimum, and every earlier entry is strictly larger (earliest wins ties) |
| Agents.RandomIndex | src/components/PacmanGame.jsx:280 | floor(rnd * n) is a valid index for every rnd in [0, 1) |
| Agents.Steer | src/components/PacmanGame.jsx:276-294 | the new heading is always one of the turn choices |
| Agents.SteerChases | src/components/PacmanGame.jsx:280-291 | when not frightened the heading minimises the distance from the tile ahead to Pac-Man, the earliest choice on a tie |
| Agents.Countdown | src/components/PacmanGame.jsx:268 | after k frames a counter of f reads max(f - k, 0): never negative, down by exactly one per frame while positive |
| Agents.GhostMove | src/components/PacmanGame.jsx:267-312 | a ghost frame drops a positive counter by one and leaves zero at zero, moves only to an approved point (or keeps the wrapped position), heads for a turn choice or its reverse when near a centre, and keeps the ghost approved |
| Agents.GhostPace | src/components/PacmanGame.jsx:268-312 | the ghost tries one step along the heading it picked, at 1.4 per reference frame iff its counter is still positive after the decrement, else 1.8; if the wall test approves that point it lands exactly there with that heading, otherwise it stays (up to the tunnel wrap) and reverses the heading |
| Agents.GhostStep | src/components/PacmanGame.jsx:271-295 | with the corrected near-centre test a ghost on a tile centre always heads for one of its turn choices or bounces back from it |
| Agents.GhostStepAsWritten | src/components/PacmanGame.jsx:267-312 | the source's ghost frame keeps the ghost approved |
| Agents.GhostFrame | src/components/PacmanGame.jsx:267-312 | a ghost frame is the ghost's move (countdown, steer when near, move or bounce, wrap) under the selected near-centre test, the source's rounded one or the corrected one; it keeps the ghost approved |
| Agents.AsWrittenNeverSteers | src/components/PacmanGame.jsx:272-295 | as written, a ghost on a centre line never turns: it keeps or reverses its heading and stays on that line |
| Agents.SpawnsOk | src/components/PacmanGame.jsx:72-77 | every ghost spawn and the ghost house are approved points |
| Agents.HouseApproved | src/components/PacmanGame.jsx:161-164 | the wall test approves the centres of tiles (10, 9), (10, 8), (10, 10) and (9, 9), where the ghosts respawn |
| Game.InitialOnCentreLines | src/components/PacmanGame.jsx:73-76 | the mount state puts every ghost on a centre line |
| Game.EncounterOnLines | src/components/PacmanGame.jsx:314-327 | storing a ghost on a centre line, sending an eaten ghost home, or a respawn keeps all ghosts on centre lines |
| Game.PassOnLines | src/components/PacmanGame.jsx:267-328 | the ghost pass with the source's near-centre test keeps all ghosts on centre lines |
| Game.UpdateKeepsCentreLines | src/components/PacmanGame.jsx:225-328 | every update with the source's near-centre test keeps all ghosts on centre lines |
| Game.FrameKeepsCentreLines | src/components/PacmanGame.jsx:424-429 | every frame of the loop keeps all ghosts on centre lines |
| Agents.SpawnsOnCentreLines | src/components/PacmanGame.jsx:160-165 | every respawned ghost, and an eaten one, travels along a centre line |
| Game.LevelHasPellets | src/components/PacmanGame.jsx:15-38 | LEVEL holds at least one collectible |
| Game.Initial | src/components/PacmanGame.jsx:64-92 | the mount state is a valid playing session with pellets left |
| Game.EndGame | src/components/PacmanGame.jsx:180-183 | gameOver sets the loss message and halts play and changes nothing else |
| Game.Win | src/components/PacmanGame.jsx:185-188 | win sets the cleared message and halts play and changes nothing else |
| Game.ResetPositions | src/components/PacmanGame.jsx:158-166 | all agents return to their spawns; board, score, lives and play state are untouched; validity is kept |
| Game.LoseLife | src/components/PacmanGame.jsx:168-178 | lives drop by one; at zero or below the game ends with the loss message and agents stay; otherwise all agents respawn; board and score are untouched |
| Game.Restart | src/components/PacmanGame.jsx:190-203 | restart yields the mount state, whatever the session was |
| Game.RestartForgets | src/components/PacmanGame.jsx:190-203 | two restarts agree; the result has score 0, 3 lives, the full LEVEL, the initial pellet count, spawns, no message, play running |
| Game.EatPellet | src/components/PacmanGame.jsx:135-156 | on a 2 the tile becomes 0, the counter drops by one and the score rises by 10; on a 3 the same with 50 and every ghost frightened for 360 frames; otherwise nothing changes; play stops and the cleared message is set exactly when the counter is <= 0 afterwards |
| Game.EatPelletValid | src/components/PacmanGame.jsx:135-156 | eating keeps the session invariant: the counter still equals the number of collectibles on the board, the board still differs from LEVEL only by eaten items, and the score stays a multiple of ten |
| Game.EatTallied | src/components/PacmanGame.jsx:139-146 | the decrement of `pelletsLeftRef` happens exactly when a collectible is removed, so the counter keeps matching a recount of the board |
| Game.Encounter | src/components/PacmanGame.jsx:314-327 | no overlap: only the moved ghost is stored; frightened ghost: +200, lives kept, that ghost to the house with heading (0,0) and counter 0; otherwise one life lost, game over at zero, else all agents respawn; the board never changes |
| Game.EncounterValid | src/components/PacmanGame.jsx:314-327 | every collision outcome keeps the session invariant when the moved ghost is on an approved point |
| Game.BountyValid | src/components/PacmanGame.jsx:316-322 | eating a frightened ghost (200 points, ghost to the house) keeps the invariant |
| Game.CaughtValid | src/components/PacmanGame.jsx:323-325 | losing a life after storing the moved ghost keeps the invariant |
| Game.QuietEncounter | src/components/PacmanGame.jsx:315 | with Pac-Man at the spawn, an approved ghost causes no collision: the moved ghost is only stored |
| Game.PassFrom | src/components/PacmanGame.jsx:267-328 | under either near-centre test, the ghost pass leaves the board and counter alone, never lowers the score or raises lives, never resumes play, leaves Pac-Man or respawns him, and keeps validity; past the last ghost the session is returned as it stands (with `Game.PassStep`, each ghost's turn is exactly its frame followed by its collision outcome) |
| Game.FieldTiles | src/components/PacmanGame.jsx:136-138 | an in-field point lies in a grid tile, so eating at Pac-Man's position stays in bounds |
| Game.MoveAndEat | src/components/PacmanGame.jsx:262-264 | this stage is `eatPellet` at Pac-Man's new position, which lies in the grid; it keeps validity, never moves him, never lowers the score, never changes lives, never raises the counter, and never resumes play |
| Game.Update | src/components/PacmanGame.jsx:225-332 | under either near-centre test, one update keeps validity, never lowers the score, never raises the remaining-pellet counter (which validity ties to the number of collectibles) or lives, never resumes play, and leaves Pac-Man approved, in place, or respawned |
| Game.UpdateStages | src/components/PacmanGame.jsx:227-267 | an update is Pac-Man's step, then eating at his new position, then the ghost pass over the list as it stood after eating, against the moved Pac-Man |
| Game.FrameDt | src/components/PacmanGame.jsx:425 | for any two times, the simulated step is now - last when that is under 32 and exactly 32 otherwise; it never exceeds 32 and has no lower bound |
| Game.Frame | src/components/PacmanGame.jsx:424-429 | for any two times, a playing frame is exactly one update with the clamped step `FrameDt(last, now)` and the source's ghost test; a stopped frame leaves the session unchanged; validity is kept |
| Game.Queue | src/components/PacmanGame.jsx:97-100 | a direction key sets only the queued direction, from the key map |
| Game.Press | src/components/PacmanGame.jsx:94-104 | a direction key queues its direction; Enter or Space restarts a finished game; other keys change nothing; validity is kept |
| Game.PressAsWritten | src/components/PacmanGame.jsx:101-103 | as written, Enter or Space on a finished game throws a ReferenceError for `restart` and leaves the session as it was (those keys queue nothing); every other press behaves as the corrected handler |
| Game.PassQuiet | src/components/PacmanGame.jsx:314-327 | under either near-centre test, with Pac-Man at the spawn the ghost pass changes no score, life, play state, message or Pac-Man |
| Game.ShortStep | src/components/PacmanGame.jsx:228 | a step of at most 32 ms in either direction moves Pac-Man at most 4.224 units |
| Game.NothingToEatAtSpawn | src/components/PacmanGame.jsx:135-156 | eating at the spawn leaves the board, score, play state and ghosts unchanged: its tile is a wall |
| Game.InitialFrozen | src/components/PacmanGame.jsx:71 | the mount state has Pac-Man at the spawn with a full board, no score, three lives, play running |
| Game.QuietStep | src/components/PacmanGame.jsx:267-327 | with Pac-Man at the spawn, one turn of the ghost loop only stores the approved ghost's frame |
| Game.PassStores | src/components/PacmanGame.jsx:267-327 | with Pac-Man at the spawn, the pass from ghost i stores each later ghost's frame and leaves the earlier ones; once the list was replaced it changes nothing |
| Game.QuietPassStores | src/components/PacmanGame.jsx:267-327 | with Pac-Man at the spawn, a whole pass stores, for every ghost, its frame against the spawn point |
| Game.FrozenGhostsMove | src/components/PacmanGame.jsx:225-328 | in the frozen game every update still moves each ghost by its own frame and stores it |
| Game.UpdateFrozen | src/components/PacmanGame.jsx:225-328 | under either near-centre test, an update of at most 32 ms in either direction keeps that frozen state |
| Game.FrameFrozen | src/components/PacmanGame.jsx:424-429 | every frame whose timestamp is at most 32 ms before the previous one keeps the frozen state: the board is never cleared, the score stays 0 and no life is lost |
| Game.PressFrozen | src/components/PacmanGame.jsx:94-104 | no key press leaves the frozen state |

## Left out

- Drawing (`draw`), the mouth animation, the JSX overlay and `src/App.jsx`: presentation only.
- `requestAnimationFrame`, `performance.now` and `cancelAnimationFrame`: host I/O. The frame times are parameters of `Game.Frame`, and the loop's re-arming and teardown are not modelled.
- The listener registration and `e.preventDefault()`: host I/O. `Game.Press` is the handler's effect on the session.
- React's asynchronous state batching: setters are applied immediately and in order.
- The `setLevelGrid(clone)` re-render (line 151). It runs after every `eatPellet` call, so on every update while the counter is a multiple of 8, including 0 after a win. It only copies the grid, but the animation effect depends on `levelGrid` (line 434), so it restarts and reads `last` again with `performance.now()` (line 112). The copy and the restart are not modelled. Their effect on the next step, a `last` that may lie after the next frame timestamp, is covered because `Game.Frame` accepts any pair of times.
- Game.FrameFrozen: stated only for frame timestamps at most 32 ms before `last`. A frame timestamp can precede `last` by up to one display frame, about 16.7 ms at 60 Hz. On displays slower than about 31 Hz the gap could exceed 32 ms, and that case is not covered.
- `Math.random`: a per-ghost sample in [0, 1) is a parameter.
- IEEE double rounding: positions, speeds and step scaling are exact reals.
- `Math.hypot`: compared as squared distances.
- The `chosen || g.dir` fallback: the choice list is never empty and the first candidate always beats the infinite initial best, so the fallback is never taken and the model has none.
- Ghost `color`, `mode` and `speed` fields and Pac-Man's `radius`, `mouth` and `mouthOpen`. The mode is always chase and the speed always 1.8, and the constants are used instead.
- The unused `lerp`.
- The restart loop's recount over `LEVEL`: `Game.Restart` uses the reference count `Pellets(LEVEL)`. `Grid.CountPellets` proves that the counting loop computes it.
- The exact initial count (149 cells hold 2 or 3): only `Pellets(LEVEL) > 0` is proved.

## Findings

| source | as written | input that shows it | evidently intended | confidence | as-written member | corrected member |
|---|---|---|---|---|---|---|
| src/components/PacmanGame.jsx:272-274 | the ghost's "tile centre" is `Math.round(g.x / TILE) * TILE + TILE / 2`: the rounded multiple plus half a tile | a ghost at its spawn (209, 231) gets gcx = 10 * 22 + 11 = 231, 22 units away, so it is never "close"; in one frame a ghost on a centre line only keeps or reverses its heading and stays on the line, and every frame keeps all ghosts on centre lines from the mount state on (`Game.InitialOnCentreLines`, `Game.FrameKeepsCentreLines`), so none ever turns or chases | the centre of the tile containing the ghost, `Math.floor(g.x / TILE) * TILE + TILE / 2`, as in `chooseTurnChoices` | high (not executed) | Agents.AsWrittenNeverSteers | Agents.GhostStep |
| src/components/PacmanGame.jsx:101-102 | the key handler calls `restart()`, but `restart` is declared inside the animation effect (line 190), out of the handler's scope | a finished game (playing false) and the key "Enter": the call throws a ReferenceError and nothing restarts | Enter or Space restarts a finished game | high (not executed) | Game.PressAsWritten | Game.Press |

=== FILE: agents.dfy ===
/** The two kinds of agent and their per-frame moves: Pac-Man, who turns
    to the queued direction at tile-aligned moments and stops at walls,
    and the ghosts, who pick among the legal non-reversing turns (greedy
    towards Pac-Man, or at random while frightened) and bounce off walls. */
module Agents {
  import opened Grid
  import opened Motion

  datatype Pac = Pac(x: real, y: real, dir: Vec, nextDir: Vec)

  /** A ghost's `mode` field is always 'chase' in the source and its base
      speed always 1.8, so neither is stored: a ghost is frightened exactly
      when its countdown is positive. */
  datatype Ghost = Ghost(x: real, y: real, dir: Vec, frightened: nat)

  const SPEED: real := 2.2
  const GHOST_SPEED: real := 1.8
  const FRIGHT_SPEED: real := 1.4
  /** Six seconds at 60 frames per second. */
  const FRIGHT_FRAMES: nat := 360

  const PAC_SPAWN: Pac := Pac(Centre(9), Centre(15), ZERO, ZERO)

  const GHOST_SPAWNS: seq<Ghost> := [
    Ghost(Centre(9), Centre(10), RIGHT, 0),
    Ghost(Centre(8), Centre(10), LEFT, 0),
    Ghost(Centre(10), Centre(10), DOWN, 0),
    Ghost(Centre(9), Centre(9), UP, 0)
  ]

  /** Where an eaten ghost is sent back to. */
  const GHOST_HOUSE: Ghost := Ghost(Centre(9), Centre(10), ZERO, 0)

  /** A ghost always stands on a point the wall test approves. */
  predicate GhostOk(g: Ghost) {
    CanMove(g.x, g.y) && IsDir(g.dir) && g.frightened <= FRIGHT_FRAMES
  }

  predicate PacOk(p: Pac) {
    InField(p.x, p.y) && IsDir(p.dir) && IsDir(p.nextDir)
  }

  // ---------------------------------------------------------------------
  // Moving against walls

  /** What a blocked agent does: Pac-Man stops, a ghost reverses. */
  datatype WallRule = Stop | Bounce

  datatype Step = Step(x: real, y: real, dir: Vec)

  /** Coordinate v advanced by `speed` along direction component d. */
  function Ahead(v: real, d: int, speed: real): real {
    v + d as real * speed
  }

  /** One attempted move along `dir`: to the point one step ahead when the
      wall test approves it, otherwise no move at all. */
  function Advance(x: real, y: real, dir: Vec, speed: real, rule: WallRule): (m: Step)
    ensures (m.x == x && m.y == y) || CanMove(m.x, m.y)
    ensures CanMove(Ahead(x, dir.x, speed), Ahead(y, dir.y, speed)) ==>
      m.x == Ahead(x, dir.x, speed) && m.y == Ahead(y, dir.y, speed) && m.dir == dir
    ensures !CanMove(Ahead(x, dir.x, speed), Ahead(y, dir.y, speed)) ==>
      m.x == x && m.y == y && m.dir == (if rule == Stop then ZERO else Reverse(dir))
  {
    var nx, ny := Ahead(x, dir.x, speed), Ahead(y, dir.y, speed);
    if CanMove(nx, ny) then Step(nx, ny, dir)
    else if rule == Stop then Step(x, y, ZERO)
    else Step(x, y, Reverse(dir))
  }

  // ---------------------------------------------------------------------
  // Pac-Man

  /** Centre of the tile one whole tile along d from coordinate v. */
  function TurnTarget(v: real, d: int): real {
    Centre(TileOf(v + (d * TILE) as real))
  }

  /** At a half-tile-aligned moment the queued direction replaces the
      current one, provided the tile it leads to is approved. */
  function PacTurn(p: Pac): (d: Vec)
    ensures d == p.dir || d == p.nextDir
    ensures d != p.dir ==>
      PacNearCentre(p.x, p.y) && CanMove(TurnTarget(p.x, p.nextDir.x), TurnTarget(p.y, p.nextDir.y))
    ensures PacNearCentre(p.x, p.y) && CanMove(TurnTarget(p.x, p.nextDir.x), TurnTarget(p.y, p.nextDir.y))
      ==> d == p.nextDir
  {
    if PacNearCentre(p.x, p.y)
       && CanMove(TurnTarget(p.x, p.nextDir.x), TurnTarget(p.y, p.nextDir.y))
    then p.nextDir
    else p.dir
  }

  /** Pac-Man's frame: tunnel wrap, turn, then move or stop at the wall.
      The queued direction is kept. */
  function PacStep(p: Pac, speed: real): (r: Pac)
    ensures r.nextDir == p.nextDir
    ensures var x := Wrap(p.x, p.y);
      var d := PacTurn(p.(x := x));
      var nx, ny := Ahead(x, d.x, speed), Ahead(p.y, d.y, speed);
      && (CanMove(nx, ny) ==> r.x == nx && r.y == ny && r.dir == d)
      && (!CanMove(nx, ny) ==> r.x == x && r.y == p.y && r.dir == ZERO)
    ensures (r.x == Wrap(p.x, p.y) && r.y == p.y) || CanMove(r.x, r.y)
    ensures PacOk(p) ==> PacOk(r)
  {
    var x := Wrap(p.x, p.y);
    var d := PacTurn(p.(x := x));
    var m := Advance(x, p.y, d, speed, Stop);
    assert CanMove(m.x, m.y) ==> InField(m.x, m.y) by {
      if CanMove(m.x, m.y) {
        CanMoveBounds(m.x, m.y);
      }
    }
    Pac(m.x, m.y, m.dir, p.nextDir)
  }

  /** The spawn tile (column 9, row 15) is a wall in LEVEL. */
  lemma SpawnTileClosed()
    ensures !Open(15, 9)
  {
    Landmarks();
    OpenAt(15, 9);
  }

  /** Every centre less than 17 units from the spawn along both axes has
      the spawn tile under its box, so the wall test rejects it. */
  lemma {:induction false} NearSpawnBlocked(nx: real, ny: real)
    ensures 192.0 < nx < 226.0 && 324.0 < ny < 358.0 ==> !CanMove(nx, ny)
  {
    if 192.0 < nx < 226.0 && 324.0 < ny < 358.0 {
      assert TileOf(nx - HALF_BOX) <= 9 <= TileOf(nx + HALF_BOX);
      assert TileOf(ny - HALF_BOX) <= 15 <= TileOf(ny + HALF_BOX);
      SpawnTileClosed();
      WallUnderBox(nx, ny, 15, 9);
    }
  }

  /** In particular the spawn point itself is not approved. */
  lemma SpawnInWall()
    ensures !CanMove(PAC_SPAWN.x, PAC_SPAWN.y)
  {
    NearSpawnBlocked(PAC_SPAWN.x, PAC_SPAWN.y);
  }

  /** Consequently Pac-Man never leaves the spawn: with a step shorter
      than half a tile, forwards or (for a negative time step) backwards,
      every move from there is rejected, whatever the queued direction. */
  lemma PacStuckAtSpawn(p: Pac, speed: real)
    requires p.x == PAC_SPAWN.x && p.y == PAC_SPAWN.y
    requires IsDir(p.dir) && IsDir(p.nextDir)
    requires -11.0 < speed < 11.0
    ensures PacStep(p, speed).x == p.x && PacStep(p, speed).y == p.y
    ensures PacStep(p, speed).dir == ZERO
  {
    assert Wrap(p.x, p.y) == p.x;
    var d := PacTurn(p);
    BlockedNearSpawn(d, speed);
  }

  /** Every step of less than half a tile from the spawn, along an axis,
      is rejected. */
  lemma BlockedNearSpawn(d: Vec, speed: real)
    requires IsDir(d) && -11.0 < speed < 11.0
    ensures !CanMove(Ahead(PAC_SPAWN.x, d.x, speed), Ahead(PAC_SPAWN.y, d.y, speed))
  {
    var nx, ny := Ahead(PAC_SPAWN.x, d.x, speed), Ahead(PAC_SPAWN.y, d.y, speed);
    assert 198.0 < nx < 220.0 by {
      if d.x == 1 {} else if d.x == -1 {} else {}
    }
    assert 330.0 < ny < 352.0 by {
      if d.y == 1 {} else if d.y == -1 {} else {}
    }
    NearSpawnBlocked(nx, ny);
  }

  /** No ghost standing on an approved point can touch Pac-Man at the
      spawn: any box close enough to overlap covers the wall tile (15, 9). */
  lemma NoHitAtSpawn(gx: real, gy: real)
    requires CanMove(gx, gy)
    ensures !HitBoxes(PAC_SPAWN.x, PAC_SPAWN.y, gx, gy)
  {
    HitBoxesIffNear(PAC_SPAWN.x, PAC_SPAWN.y, gx, gy);
    NearSpawnBlocked(gx, gy);
  }

  // ---------------------------------------------------------------------
  // Ghost turn choices

  /** The enumeration order of the four cardinal directions. */
  const OPTIONS: seq<Vec> := [RIGHT, LEFT, DOWN, UP]

  /** One of the four unit steps. */
  predicate Cardinal(d: Vec) {
    IsDir(d) && d != ZERO
  }

  /** Position of a direction in OPTIONS, 4 for anything else. */
  function Rank(d: Vec): int {
    if d.y == 0 && d.x == 1 then 0
    else if d.y == 0 && d.x == -1 then 1
    else if d.x == 0 && d.y == 1 then 2
    else if d.x == 0 && d.y == -1 then 3
    else 4
  }

  /** d is a legal turn from tile (tr, tc) for a ghost heading `cur`: it
      is not the reverse, and the neighbouring tile along d is open.  By
      CentreApproved this is the source's test of the neighbour's centre. */
  predicate Eligible(tr: int, tc: int, cur: Vec, d: Vec) {
    d != Reverse(cur) && Open(tr + d.y, tc + d.x)
  }

  /** The source's form: the wall test of the centre one tile along d from
      the current tile's centre. */
  lemma EligibleIsApprovedStep(x: real, y: real, cur: Vec, d: Vec)
    ensures Eligible(TileOf(y), TileOf(x), cur, d) <==>
      d != Reverse(cur) &&
      CanMove(Centre(TileOf(x)) + (d.x * TILE) as real, Centre(TileOf(y)) + (d.y * TILE) as real)
  {
    var tr, tc := TileOf(y), TileOf(x);
    assert Centre(tc) + (d.x * TILE) as real == Centre(tc + d.x);
    assert Centre(tr) + (d.y * TILE) as real == Centre(tr + d.y);
    CentreApproved(tr + d.y, tc + d.x);
  }

  predicate DeadEnd(tr: int, tc: int, cur: Vec) {
    forall k :: 0 <= k < |OPTIONS| ==> !Eligible(tr, tc, cur, OPTIONS[k])
  }

  predicate Ordered(s: seq<Vec>) {
    forall a, b :: 0 <= a < b < |s| ==> Rank(s[a]) < Rank(s[b])
  }

  lemma OrderedCons(d: Vec, rest: seq<Vec>)
    requires Ordered(rest)
    requires forall k :: 0 <= k < |rest| ==> Rank(d) < Rank(rest[k])
    ensures Ordered([d] + rest)
  {
    var s := [d] + rest;
    forall a, b | 0 <= a < b < |s|
      ensures Rank(s[a]) < Rank(s[b])
    {
      assert s[b] == rest[b - 1];
      if a > 0 {
        assert s[a] == rest[a - 1];
      }
    }
  }

  function EligibleFrom(tr: int, tc: int, cur: Vec, i: nat): (r: seq<Vec>)
    requires i <= |OPTIONS|
    ensures forall k :: 0 <= k < |r| ==> Cardinal(r[k]) && Eligible(tr, tc, cur, r[k])
    ensures forall k :: 0 <= k < |r| ==> i <= Rank(r[k]) < |OPTIONS|
    ensures forall k :: i <= k < |OPTIONS| && Eligible(tr, tc, cur, OPTIONS[k]) ==> OPTIONS[k] in r
    ensures Ordered(r)
    decreases |OPTIONS| - i
  {
    if i == |OPTIONS| then []
    else
      var rest := EligibleFrom(tr, tc, cur, i + 1);
      if Eligible(tr, tc, cur, OPTIONS[i]) then
        assert Rank(OPTIONS[i]) == i;
        OrderedCons(OPTIONS[i], rest);
        [OPTIONS[i]] + rest
      else rest
  }

  /** The legal turns in enumeration order, or just the reverse at a dead
      end; never empty. */
  function TurnChoices(tr: int, tc: int, cur: Vec): (r: seq<Vec>)
    ensures |r| > 0
    ensures r == [Reverse(cur)] <==> DeadEnd(tr, tc, cur)
  {
    var found := EligibleFrom(tr, tc, cur, 0);
    if found == [] then
      [Reverse(cur)]
    else
      found
  }

  /** Away from a dead end the choices are exactly the legal turns, each
      once, in the order right, left, down, up. */
  lemma ChoicesAreLegalTurns(tr: int, tc: int, cur: Vec)
    requires !DeadEnd(tr, tc, cur)
    ensures var r := TurnChoices(tr, tc, cur);
      && (forall k :: 0 <= k < |r| ==> Cardinal(r[k]) && Eligible(tr, tc, cur, r[k]))
      && (forall k :: 0 <= k < |OPTIONS| && Eligible(tr, tc, cur, OPTIONS[k]) ==> OPTIONS[k] in r)
      && Ordered(r)
  {
    var found := EligibleFrom(tr, tc, cur, 0);
    assert found != [];
  }

  lemma ChoicesAreDirs(tr: int, tc: int, cur: Vec)
    requires IsDir(cur)
    ensures forall d :: d in TurnChoices(tr, tc, cur) ==> IsDir(d)
  {
    var found := EligibleFrom(tr, tc, cur, 0);
    forall d | d in TurnChoices(tr, tc, cur)
      ensures IsDir(d)
    {
      if found == [] {
        assert d == Reverse(cur);
      } else {
        var k :| 0 <= k < |found| && found[k] == d;
        assert Cardinal(found[k]);
      }
    }
  }

  // ---------------------------------------------------------------------
  // Ghost direction choice

  /** Squared distance from one tile ahead of the ghost along d to (px, py);
      it orders candidates exactly as Math.hypot does. */
  function AheadDist(g: Ghost, d: Vec, px: real, py: real): real {
    SqNorm(g.x + (d.x * TILE) as real - px, g.y + (d.y * TILE) as real - py)
  }

  function Dists(g: Ghost, opts: seq<Vec>, px: real, py: real): (ds: seq<real>)
    ensures |ds| == |opts|
    ensures forall k :: 0 <= k < |opts| ==> ds[k] == AheadDist(g, opts[k], px, py)
  {
    seq(|opts|, k requires 0 <= k < |opts| => AheadDist(g, opts[k], px, py))
  }

  /** The scan with a strict `<`: `best` is the first minimum of ds[..i]. */
  function ArgMinFrom(ds: seq<real>, i: nat, best: nat): (k: nat)
    requires best < i <= |ds|
    requires forall j :: 0 <= j < i ==> ds[best] <= ds[j]
    requires forall j :: 0 <= j < best ==> ds[j] > ds[best]
    ensures k < |ds|
    ensures forall j :: 0 <= j < |ds| ==> ds[k] <= ds[j]
    ensures forall j :: 0 <= j < k ==> ds[j] > ds[k]
    decreases |ds| - i
  {
    if i == |ds| then best
    else if ds[i] < ds[best] then ArgMinFrom(ds, i + 1, i)
    else ArgMinFrom(ds, i + 1, best)
  }

  /** Index of the earliest smallest entry.  The source starts from an
      infinite best, so its first candidate is always taken. */
  function ArgMin(ds: seq<real>): (k: nat)
    requires |ds| > 0
    ensures k < |ds|
    ensures forall j :: 0 <= j < |ds| ==> ds[k] <= ds[j]
    ensures forall j :: 0 <= j < k ==> ds[j] > ds[k]
  {
    ArgMinFrom(ds, 1, 0)
  }

  lemma ScaledBelow(rnd: real, n: nat)
    requires 0.0 <= rnd < 1.0 && n > 0
    ensures 0.0 <= rnd * n as real < n as real
  {
    assert n as real - rnd * n as real == (1.0 - rnd) * n as real;
  }

  /** Math.floor(Math.random() * n) for a sample rnd in [0, 1). */
  function RandomIndex(rnd: real, n: nat): (k: nat)
    requires 0.0 <= rnd < 1.0 && n > 0
    ensures k < n
  {
    ScaledBelow(rnd, n);
    (rnd * n as real).Floor
  }

  /** The direction a ghost takes at a tile centre: always one of its turn
      choices; when not frightened, one that minimises the distance ahead
      to Pac-Man, the earliest on ties. */
  function Steer(g: Ghost, f: nat, px: real, py: real, rnd: real): (d: Vec)
    requires 0.0 <= rnd < 1.0
    ensures d in TurnChoices(TileOf(g.y), TileOf(g.x), g.dir)
  {
    var opts := TurnChoices(TileOf(g.y), TileOf(g.x), g.dir);
    if f > 0 then opts[RandomIndex(rnd, |opts|)]
    else opts[ArgMin(Dists(g, opts, px, py))]
  }

  /** When not frightened the ghost chases: it takes the choice whose tile
      ahead is nearest to Pac-Man, the earliest one on a tie. */
  lemma SteerChases(g: Ghost, px: real, py: real, rnd: real)
    requires 0.0 <= rnd < 1.0
    ensures var opts := TurnChoices(TileOf(g.y), TileOf(g.x), g.dir);
      var d := Steer(g, 0, px, py, rnd);
      exists k :: 0 <= k < |opts| && d == opts[k]
        && (forall j :: 0 <= j < |opts| ==> AheadDist(g, d, px, py) <= AheadDist(g, opts[j], px, py))
        && (forall j :: 0 <= j < k ==> AheadDist(g, opts[j], px, py) > AheadDist(g, d, px, py))
  {
    var opts := TurnChoices(TileOf(g.y), TileOf(g.x), g.dir);
    var k := ArgMin(Dists(g, opts, px, py));
    assert Steer(g, 0, px, py, rnd) == opts[k];
  }

  // ---------------------------------------------------------------------
  // Frightened countdown and the ghost frame

  /** One frame of the countdown: down by one while positive. */
  function FrightTick(f: nat): nat {
    if f > 0 then f - 1 else f
  }

  function Ticks(f: nat, k: nat): nat {
    if k == 0 then f else Ticks(FrightTick(f), k - 1)
  }

  /** After k frames a countdown of f reads max(f - k, 0): it never goes
      negative and falls by exactly one per frame while positive. */
  lemma {:induction false} Countdown(f: nat, k: nat)
    ensures Ticks(f, k) == if f >= k then f - k else 0
  {
    if k > 0 {
      Countdown(FrightTick(f), k - 1);
    }
  }

  /** Speed per reference frame: slow exactly while still frightened. */
  function GhostSpeed(f: nat, scale: real): real {
    (if f > 0 then FRIGHT_SPEED else GHOST_SPEED) * scale
  }

  /** The heading a ghost tries this frame: a steering choice when near a
      centre, its current heading otherwise. */
  function GhostHeading(g: Ghost, px: real, py: real, rnd: real, near: bool): Vec
    requires 0.0 <= rnd < 1.0
  {
    if near then Steer(g, FrightTick(g.frightened), px, py, rnd) else g.dir
  }

  /** One ghost's frame given the verdict of the near-centre test:
      countdown, turn when near a centre, move or bounce, tunnel wrap. */
  function GhostMove(g: Ghost, px: real, py: real, scale: real, rnd: real, near: bool): (r: Ghost)
    requires 0.0 <= rnd < 1.0
    ensures g.frightened > 0 ==> r.frightened == g.frightened - 1
    ensures g.frightened == 0 ==> r.frightened == 0
    ensures (r.x == Wrap(g.x, g.y) && r.y == g.y) || CanMove(r.x, r.y)
    ensures near ==>
      var choices := TurnChoices(TileOf(g.y), TileOf(g.x), g.dir);
      r.dir in choices || Reverse(r.dir) in choices
    ensures GhostOk(g) ==> GhostOk(r)
  {
    var f := FrightTick(g.frightened);
    var d := GhostHeading(g, px, py, rnd, near);
    var m := Advance(g.x, g.y, d, GhostSpeed(f, scale), Bounce);
    assert GhostOk(g) ==> IsDir(d) by {
      if GhostOk(g) && near {
        ChoicesAreDirs(TileOf(g.y), TileOf(g.x), g.dir);
      }
    }
    assert CanMove(m.x, m.y) ==> Wrap(m.x, m.y) == m.x by {
      if CanMove(m.x, m.y) {
        WrapIdle(m.x, m.y, m.y);
      }
    }
    assert m.dir == d || Reverse(m.dir) == d;
    Ghost(Wrap(m.x, m.y), m.y, m.dir, f)
  }

  /** v is the centre of the tile containing it. */
  predicate IsCentre(v: real) {
    v == Centre(TileOf(v))
  }

  /** The ghost frame of the model, with the corrected near-centre test:
      at every tile centre the ghost heads for one of its turn choices. */
  function GhostStep(g: Ghost, px: real, py: real, scale: real, rnd: real): (r: Ghost)
    requires 0.0 <= rnd < 1.0
    ensures GhostOk(g) ==> GhostOk(r)
    ensures IsCentre(g.x) && IsCentre(g.y) ==>
      var choices := TurnChoices(TileOf(g.y), TileOf(g.x), g.dir);
      r.dir in choices || Reverse(r.dir) in choices
  {
    CorrectedHitsCentres(TileOf(g.x), TileOf(g.y));
    GhostMove(g, px, py, scale, rnd, GhostNearCentre(g.x, g.y))
  }

  /** The ghost frame exactly as the source writes it. */
  function GhostStepAsWritten(g: Ghost, px: real, py: real, scale: real, rnd: real): (r: Ghost)
    requires 0.0 <= rnd < 1.0
    ensures GhostOk(g) ==> GhostOk(r)
  {
    GhostMove(g, px, py, scale, rnd, GhostNearCentreAsWritten(g.x, g.y))
  }

  /** Which near-centre test a ghost frame uses: the source's, or the
      corrected one (the centre of the tile containing the ghost). */
  datatype CentreTest = AsWritten | Corrected

  /** One ghost's frame under the chosen near-centre test. */
  function GhostFrame(g: Ghost, px: real, py: real, scale: real, rnd: real, test: CentreTest): (r: Ghost)
    requires 0.0 <= rnd < 1.0
    ensures r == GhostMove(g, px, py, scale, rnd,
      if test == AsWritten then GhostNearCentreAsWritten(g.x, g.y) else GhostNearCentre(g.x, g.y))
    ensures GhostOk(g) ==> GhostOk(r)
  {
    if test == AsWritten then GhostStepAsWritten(g, px, py, scale, rnd)
    else GhostStep(g, px, py, scale, rnd)
  }

  /** The ghost travels along a row or column through tile centres. */
  predicate OnCentreLine(g: Ghost) {
    (g.dir.y == 0 && IsCentre(g.y)) || (g.dir.x == 0 && IsCentre(g.x))
  }

  /** Every ghost starts on a centre line, and so does an eaten one. */
  lemma SpawnsOnCentreLines()
    ensures forall k :: 0 <= k < |GHOST_SPAWNS| ==> OnCentreLine(GHOST_SPAWNS[k])
    ensures OnCentreLine(GHOST_HOUSE)
  {
    assert TileOf(Centre(10)) == 10 && TileOf(Centre(9)) == 9;
    assert TileOf(Centre(8)) == 8;
  }

  /** As written, a ghost on a centre line is never near a centre, so it
      never turns: it keeps its heading or bounces straight back, and stays
      on the same centre line.  From the spawns the chase logic never runs. */
  lemma AsWrittenNeverSteers(g: Ghost, px: real, py: real, scale: real, rnd: real)
    requires 0.0 <= rnd < 1.0 && GhostOk(g) && OnCentreLine(g)
    ensures var r := GhostStepAsWritten(g, px, py, scale, rnd);
      OnCentreLine(r) && (r.dir == g.dir || r.dir == Reverse(g.dir))
  {
    if g.dir.y == 0 && IsCentre(g.y) {
      AsWrittenMissesCentreRows(g.x, TileOf(g.y));
    } else {
      AsWrittenMissesCentreColumns(TileOf(g.x), g.y);
    }
    var f := FrightTick(g.frightened);
    var m := Advance(g.x, g.y, g.dir, GhostSpeed(f, scale), Bounce);
    assert GhostStepAsWritten(g, px, py, scale, rnd) == Ghost(Wrap(m.x, m.y), m.y, m.dir, f);
    if CanMove(m.x, m.y) {
      WrapIdle(m.x, m.y, m.y);
    } else {
      WrapIdle(g.x, g.y, g.y);
    }
    assert m.dir == g.dir || m.dir == Reverse(g.dir);
  }

  /** The spawns and the house are approved tile centres. */
  lemma SpawnsOk()
    ensures forall k :: 0 <= k < |GHOST_SPAWNS| ==> GhostOk(GHOST_SPAWNS[k])
    ensures GhostOk(GHOST_HOUSE)
  {
    HouseApproved();
    assert GhostOk(GHOST_SPAWNS[0]) && GhostOk(GHOST_SPAWNS[1]);
    assert GhostOk(GHOST_SPAWNS[2]) && GhostOk(GHOST_SPAWNS[3]);
  }

  /** The four house centres pass the wall test. */
  lemma HouseApproved()
    ensures CanMove(Centre(9), Centre(10)) && CanMove(Centre(8), Centre(10))
    ensures CanMove(Centre(10), Centre(10)) && CanMove(Centre(9), Centre(9))
  {
    HouseOpen();
    CentreApproved(10, 9);
    CentreApproved(10, 8);
    CentreApproved(10, 10);
    CentreApproved(9, 9);
  }

  lemma HouseOpen()
    ensures Open(10, 9) && Open(10, 8) && Open(10, 10) && Open(9, 9)
  {
    Landmarks();
    OpenAt(10, 9);
    OpenAt(10, 8);
    OpenAt(10, 10);
    OpenAt(9, 9);
  }

  /** The ghost moves exactly one step along the heading it tries, at the
      slow speed exactly while its countdown is still positive after this
      frame's decrement; if that point is refused it stays (up to the wrap)
      and reverses. */
  lemma GhostPace(g: Ghost, px: real, py: real, scale: real, rnd: real, near: bool)
    requires 0.0 <= rnd < 1.0
    ensures var r := GhostMove(g, px, py, scale, rnd, near);
      var d := GhostHeading(g, px, py, rnd, near);
      var speed := GhostSpeed(r.frightened, scale);
      var nx, ny := Ahead(g.x, d.x, speed), Ahead(g.y, d.y, speed);
      && (CanMove(nx, ny) ==> r.x == nx && r.y == ny && r.dir == d)
      && (!CanMove(nx, ny) ==> r.x == Wrap(g.x, g.y) && r.y == g.y && r.dir == Reverse(d))
  {
    var f := FrightTick(g.frightened);
    var d := GhostHeading(g, px, py, rnd, near);
    var m := Advance(g.x, g.y, d, GhostSpeed(f, scale), Bounce);
    if CanMove(m.x, m.y) {
      WrapIdle(m.x, m.y, m.y);
    }
  }
}

=== FILE: grid.dfy ===
/** The maze: its fixed dimensions, the static layout `LEVEL`, and the
    collectible overlay that pellet consumption mutates.  Cell codes follow
    the source's legend: 0 empty, 1 wall, 2 pellet, 3 power pellet,
    4 spawn area. */
module Grid {

  const TILE: int := 22
  const ROWS: int := 21
  const COLS: int := 19

  const EMPTY: int := 0
  const WALL: int := 1
  const PELLET: int := 2
  const POWER: int := 3

  /** A grid of exactly ROWS rows of COLS cells each. */
  predicate IsBoard(g: seq<seq<int>>) {
    |g| == ROWS && forall r :: 0 <= r < |g| ==> |g[r]| == COLS
  }

  type Board = g: seq<seq<int>> | IsBoard(g) witness seq(21, _ => seq(19, _ => 0))

  // The rows of the static maze, top to bottom.
  const ROW0: seq<int> := [1,1,1,1,1,1,1,1,1,1,1,1,1,1,1,1,1,1,1]
  const ROW1: seq<int> := [1,3,2,2,2,2,2,2,1,1,1,2,2,2,2,2,2,3,1]
  const ROW2: seq<int> := [1,2,1,1,1,2,1,2,2,2,2,2,1,2,1,1,1,2,1]
  const ROW3: seq<int> := [1,2,1,0,1,2,1,1,1,4,1,1,1,2,1,0,1,2,1]
  const ROW4: seq<int> := [1,2,1,0,1,2,2,2,0,4,0,2,2,2,1,0,1,2,1]
  const ROW5: seq<int> := [1,2,1,0,1,1,1,2,0,4,0,2,1,1,1,0,1,2,1]
  const ROW6: seq<int> := [1,2,2,2,2,2,2,2,0,4,0,2,2,2,2,2,2,2,1]
  const ROW7: seq<int> := [1,2,1,1,1,2,1,1,1,4,1,1,1,2,1,1,1,2,1]
  const ROW8: seq<int> := [1,2,1,0,0,2,2,2,2,0,2,2,2,2,0,0,1,2,1]
  const ROW9: seq<int> := [1,2,1,0,1,1,1,1,1,0,1,1,1,1,1,0,1,2,1]
  const ROW10: seq<int> := [1,2,0,0,1,2,2,2,0,0,0,2,2,2,1,0,0,2,1]
  const ROW11: seq<int> := [1,2,1,0,1,2,1,1,1,4,1,1,1,2,1,0,1,2,1]
  const ROW12: seq<int> := [1,2,1,0,1,2,2,2,0,4,0,2,2,2,1,0,1,2,1]
  const ROW13: seq<int> := [1,2,1,0,1,1,1,2,0,4,0,2,1,1,1,0,1,2,1]
  const ROW14: seq<int> := [1,2,2,2,2,2,2,2,0,0,0,2,2,2,2,2,2,2,1]
  const ROW15: seq<int> := [1,2,1,1,1,2,1,1,1,1,1,1,1,2,1,1,1,2,1]
  const ROW16: seq<int> := [1,3,2,2,1,2,2,2,2,1,2,2,2,2,1,2,2,3,1]
  const ROW17: seq<int> := [1,2,1,2,1,1,1,1,2,1,2,1,1,1,1,2,1,2,1]
  const ROW18: seq<int> := [1,2,2,2,2,2,2,2,2,0,2,2,2,2,2,2,2,2,1]
  const ROW19: seq<int> := [1,2,1,1,1,1,1,1,1,0,1,1,1,1,1,1,1,2,1]
  const ROW20: seq<int> := [1,1,1,1,1,1,1,1,1,1,1,1,1,1,1,1,1,1,1]

  /** The static maze; walls are read only from here. */
  const LEVEL: Board := [
    ROW0,
    ROW1,
    ROW2,
    ROW3,
    ROW4,
    ROW5,
    ROW6,
    ROW7,
    ROW8,
    ROW9,
    ROW10,
    ROW11,
    ROW12,
    ROW13,
    ROW14,
    ROW15,
    ROW16,
    ROW17,
    ROW18,
    ROW19,
    ROW20
  ]

  /** The cells of LEVEL that the rest of the model refers to by position:
      the player's spawn tile, the ghost house and a corner power pellet. */
  lemma Landmarks()
    ensures LEVEL[15][9] == WALL
    ensures LEVEL[9][9] == EMPTY && LEVEL[10][8] == EMPTY
    ensures LEVEL[10][9] == EMPTY && LEVEL[10][10] == EMPTY
    ensures LEVEL[1][1] == POWER
  {
    assert LEVEL[1] == ROW1 && LEVEL[9] == ROW9 && LEVEL[10] == ROW10 && LEVEL[15] == ROW15;
  }

  predicate InGrid(r: int, c: int) {
    0 <= r < ROWS && 0 <= c < COLS
  }

  /** The static LEVEL code of an in-grid cell. */
  function Cell(r: int, c: int): int
    requires InGrid(r, c)
  {
    CellOf(LEVEL, r, c)
  }

  /** Cell c of row r, found by walking down the rows one at a time.  The
      walk keeps general proofs from expanding the whole LEVEL literal;
      CellOfIndex gives the value at a particular cell. */
  function CellOf(rows: seq<seq<int>>, r: nat, c: nat): int
    requires r < |rows| && c < |rows[r]|
    decreases r
  {
    if r == 0 then rows[0][c] else CellOf(rows[1..], r - 1, c)
  }

  lemma {:induction false} CellOfIndex(rows: seq<seq<int>>, r: nat, c: nat)
    requires r < |rows| && c < |rows[r]|
    ensures CellOf(rows, r, c) == rows[r][c]
    decreases r
  {
    if r > 0 {
      CellOfIndex(rows[1..], r - 1, c);
    }
  }

  predicate IsPellet(v: int) {
    v == PELLET || v == POWER
  }

  /** The overlay only ever differs from LEVEL by collected pellets. */
  predicate Overlay(g: Board) {
    forall r, c :: 0 <= r < ROWS && 0 <= c < COLS ==>
      g[r][c] == Cell(r, c) || (g[r][c] == EMPTY && IsPellet(Cell(r, c)))
  }

  /** The untouched layout is its own overlay. */
  lemma LevelOverlay()
    ensures Overlay(LEVEL)
  {
    forall r, c | 0 <= r < ROWS && 0 <= c < COLS
      ensures LEVEL[r][c] == Cell(r, c)
    {
      CellOfIndex(LEVEL, r, c);
    }
  }

  /** Collecting the item in one cell keeps the overlay relation. */
  lemma OverlayCleared(g: Board, r: int, c: int)
    requires InGrid(r, c) && Overlay(g) && IsPellet(g[r][c])
    ensures IsBoard(g[r := g[r][c := EMPTY]])
    ensures Overlay(g[r := g[r][c := EMPTY]])
  {
    var h := g[r := g[r][c := EMPTY]];
    forall r', c' | 0 <= r' < ROWS && 0 <= c' < COLS
      ensures h[r'][c'] == Cell(r', c') || (h[r'][c'] == EMPTY && IsPellet(Cell(r', c')))
    {
      if r' == r && c' == c {
        assert h[r'][c'] == EMPTY;
      } else {
        assert h[r'][c'] == g[r'][c'];
      }
    }
  }

  /** Number of collectibles in a row (reference definition). */
  function RowPellets(row: seq<int>): nat {
    if row == [] then 0
    else RowPellets(row[..|row| - 1]) + (if IsPellet(row[|row| - 1]) then 1 else 0)
  }

  /** Number of collectibles in a grid (reference definition). */
  function Pellets(g: seq<seq<int>>): nat {
    if g == [] then 0
    else Pellets(g[..|g| - 1]) + RowPellets(g[|g| - 1])
  }

  /** The nested counting loop run at mount and again on restart. */
  method CountPellets(g: Board) returns (count: nat)
    ensures count == Pellets(g)
  {
    count := 0;
    var r := 0;
    while r < ROWS
      invariant 0 <= r <= ROWS
      invariant count == Pellets(g[..r])
    {
      var c := 0;
      while c < COLS
        invariant 0 <= c <= COLS
        invariant count == Pellets(g[..r]) + RowPellets(g[r][..c])
      {
        assert g[r][..c + 1][..c] == g[r][..c];
        if g[r][c] == PELLET {
          count := count + 1;
        }
        if g[r][c] == POWER {
          count := count + 1;
        }
        c := c + 1;
      }
      assert g[r][..c] == g[r];
      assert g[..r + 1][..r] == g[..r];
      r := r + 1;
    }
    assert g[..r] == g;
  }

  lemma {:induction false} RowPelletsCleared(row: seq<int>, c: int)
    requires 0 <= c < |row| && IsPellet(row[c])
    ensures RowPellets(row[c := EMPTY]) == RowPellets(row) - 1
    decreases |row|
  {
    var n := |row| - 1;
    if c == n {
      assert row[c := EMPTY][..n] == row[..n];
    } else {
      assert row[c := EMPTY][..n] == row[..n][c := EMPTY];
      RowPelletsCleared(row[..n], c);
    }
  }

  /** Clearing one collectible cell lowers the count by exactly one. */
  lemma {:induction false} PelletsCleared(g: seq<seq<int>>, r: int, c: int)
    requires 0 <= r < |g| && 0 <= c < |g[r]| && IsPellet(g[r][c])
    ensures Pellets(g[r := g[r][c := EMPTY]]) == Pellets(g) - 1
    decreases |g|
  {
    var n := |g| - 1;
    var g' := g[r := g[r][c := EMPTY]];
    if r == n {
      assert g'[..n] == g[..n];
      RowPelletsCleared(g[r], c);
    } else {
      assert g'[..n] == g[..n][r := g[r][c := EMPTY]];
      PelletsCleared(g[..n], r, c);
    }
  }

  lemma {:induction false} RowPelletsZero(row: seq<int>)
    ensures RowPellets(row) == 0 <==> forall c :: 0 <= c < |row| ==> !IsPellet(row[c])
    decreases |row|
  {
    if row != [] {
      var n := |row| - 1;
      RowPelletsZero(row[..n]);
      assert forall c :: 0 <= c < n ==> row[..n][c] == row[c];
    }
  }

  /** The count is zero exactly when no cell holds a collectible. */
  lemma {:induction false} PelletsZero(g: seq<seq<int>>)
    ensures Pellets(g) == 0 <==>
      forall r, c :: 0 <= r < |g| && 0 <= c < |g[r]| ==> !IsPellet(g[r][c])
    decreases |g|
  {
    if g != [] {
      var n := |g| - 1;
      PelletsZero(g[..n]);
      RowPelletsZero(g[n]);
      assert forall r :: 0 <= r < n ==> g[..n][r] == g[r];
    }
  }
}

=== FILE: motion.dfy ===
/** Movement legality: directions, the tile-box collision test against the
    static LEVEL, the horizontal tunnel wrap, hit-box overlap and the
    near-tile-centre tests that gate turning.  Positions are exact reals
    standing for the source's pixel coordinates. */
module Motion {
  import opened Grid

  /** A direction; the model only ever builds components in {-1, 0, 1}. */
  datatype Vec = Vec(x: int, y: int)

  const ZERO: Vec := Vec(0, 0)
  const RIGHT: Vec := Vec(1, 0)
  const LEFT: Vec := Vec(-1, 0)
  const DOWN: Vec := Vec(0, 1)
  const UP: Vec := Vec(0, -1)

  /** One of the four unit steps or ZERO (stated on the components). */
  predicate IsDir(d: Vec) {
    -1 <= d.x <= 1 && -1 <= d.y <= 1 && (d.x == 0 || d.y == 0)
  }

  function Reverse(d: Vec): Vec {
    Vec(-d.x, -d.y)
  }

  /** The agent box used by the wall test is TILE - 6 = 16 units wide. */
  const HALF_BOX: real := 8.0

  /** Math.floor(v / TILE): the tile index containing coordinate v. */
  function TileOf(v: real): int {
    (v / TILE as real).Floor
  }

  /** Pixel coordinate of the centre of tile index i. */
  function Centre(i: int): real {
    (i * TILE) as real + (TILE / 2) as real
  }

  /** Cell (r, c) exists and is not a wall of the static LEVEL. */
  predicate Open(r: int, c: int) {
    0 <= r < ROWS && 0 <= c < COLS && Cell(r, c) != WALL
  }

  /** Whether a particular cell is open, read off the LEVEL literal. */
  lemma OpenAt(r: int, c: int)
    requires 0 <= r < ROWS && 0 <= c < COLS
    ensures Open(r, c) <==> LEVEL[r][c] != WALL
  {
    CellOfIndex(LEVEL, r, c);
  }

  /** Every cell of row r from column c through maxC is open: the inner
      loop of the source's scan, which gives up at the first failure. */
  function RowClear(r: int, c: int, maxC: int): bool
    decreases maxC - c
  {
    c > maxC || (Open(r, c) && RowClear(r, c + 1, maxC))
  }

  /** Rows r through maxR are clear between minC and maxC: the outer loop. */
  function BoxClear(r: int, maxR: int, minC: int, maxC: int): bool
    decreases maxR - r
  {
    r > maxR || (RowClear(r, minC, maxC) && BoxClear(r + 1, maxR, minC, maxC))
  }

  /** The wall test: the box of width TILE - 6 centred on (nx, ny) is cut
      into tile ranges by flooring its edges, and every tile in range is
      scanned. */
  predicate CanMove(nx: real, ny: real) {
    BoxClear(TileOf(ny - HALF_BOX), TileOf(ny + HALF_BOX),
             TileOf(nx - HALF_BOX), TileOf(nx + HALF_BOX))
  }

  /** Reference meaning of the wall test: every tile the box touches is
      inside the grid and not a wall of the static LEVEL. */
  ghost predicate AllOpen(minR: int, maxR: int, minC: int, maxC: int) {
    forall r, c :: minR <= r <= maxR && minC <= c <= maxC ==> Open(r, c)
  }

  lemma {:induction false} RowClearIff(r: int, c: int, maxC: int)
    ensures RowClear(r, c, maxC) <==> forall c' :: c <= c' <= maxC ==> Open(r, c')
    decreases maxC - c
  {
    if c <= maxC {
      RowClearIff(r, c + 1, maxC);
    }
  }

  lemma {:induction false} BoxClearIff(r: int, maxR: int, minC: int, maxC: int)
    ensures BoxClear(r, maxR, minC, maxC) <==> AllOpen(r, maxR, minC, maxC)
    decreases maxR - r
  {
    if r <= maxR {
      RowClearIff(r, minC, maxC);
      BoxClearIff(r + 1, maxR, minC, maxC);
      if AllOpen(r, maxR, minC, maxC) {
        assert forall c' :: minC <= c' <= maxC ==> Open(r, c');
      }
    }
  }

  /** The scan approves a centre exactly when all tiles under the box are
      in the grid and not walls. */
  lemma CanMoveIff(nx: real, ny: real)
    ensures CanMove(nx, ny) <==>
      AllOpen(TileOf(ny - HALF_BOX), TileOf(ny + HALF_BOX), TileOf(nx - HALF_BOX), TileOf(nx + HALF_BOX))
  {
    BoxClearIff(TileOf(ny - HALF_BOX), TileOf(ny + HALF_BOX), TileOf(nx - HALF_BOX), TileOf(nx + HALF_BOX));
  }

  /** A closed tile anywhere under the box makes the wall test fail. */
  lemma WallUnderBox(nx: real, ny: real, r: int, c: int)
    requires TileOf(ny - HALF_BOX) <= r <= TileOf(ny + HALF_BOX)
    requires TileOf(nx - HALF_BOX) <= c <= TileOf(nx + HALF_BOX)
    requires !Open(r, c)
    ensures !CanMove(nx, ny)
  {
    CanMoveIff(nx, ny);
  }

  /** At a tile centre the box lies within that one tile, so the wall test
      there just asks whether the tile is open. */
  lemma CentreApproved(r: int, c: int)
    ensures CanMove(Centre(c), Centre(r)) <==> Open(r, c)
  {
    assert TileOf(Centre(c) - HALF_BOX) == c && TileOf(Centre(c) + HALF_BOX) == c;
    assert TileOf(Centre(r) - HALF_BOX) == r && TileOf(Centre(r) + HALF_BOX) == r;
    assert BoxClear(r + 1, r, c, c);
    assert RowClear(r, c + 1, c);
  }

  /** Centres whose box stays inside the board. */
  predicate InField(x: real, y: real) {
    8.0 <= x < 410.0 && 8.0 <= y < 454.0
  }

  /** Any approved centre keeps the whole box inside the board. */
  lemma CanMoveBounds(nx: real, ny: real)
    requires CanMove(nx, ny)
    ensures InField(nx, ny)
  {
    var minC, maxC := TileOf(nx - HALF_BOX), TileOf(nx + HALF_BOX);
    var minR, maxR := TileOf(ny - HALF_BOX), TileOf(ny + HALF_BOX);
    CanMoveIff(nx, ny);
    assert minC <= maxC && minR <= maxR;
    assert Open(minR, minC);
    assert Open(maxR, maxC);
  }

  /** The tunnel band: rows strictly between 9.5 and 11.5 tiles. */
  predicate InBand(y: real) {
    9.5 * TILE as real < y < 11.5 * TILE as real
  }

  /** The horizontal tunnel wrap, both tests applied in order. */
  function Wrap(x: real, y: real): real {
    if InBand(y) then
      var x1 := if x < -5.0 then (COLS * TILE) as real + 5.0 else x;
      if x1 > (COLS * TILE) as real + 5.0 then -5.0 else x1
    else x
  }

  /** The wrap is idle on every position the wall test can approve: such
      an x lies in [8, 410), far from both wrap edges. */
  lemma WrapIdle(x: real, y: real, y': real)
    requires CanMove(x, y')
    ensures Wrap(x, y) == x
  {
    CanMoveBounds(x, y');
  }

  /** Axis-aligned rectangle overlap with strict inequalities. */
  predicate RectIntersects(x1: real, y1: real, w1: real, h1: real,
                           x2: real, y2: real, w2: real, h2: real) {
    x1 < x2 + w2 && x1 + w1 > x2 && y1 < y2 + h2 && y1 + h1 > y2
  }

  /** The player's 16-unit box against a ghost's 18-unit box. */
  predicate HitBoxes(px: real, py: real, gx: real, gy: real) {
    RectIntersects(px - 8.0, py - 8.0, 16.0, 16.0, gx - 9.0, gy - 9.0, 18.0, 18.0)
  }

  /** The boxes overlap exactly when both centre offsets are under 17. */
  lemma HitBoxesIffNear(px: real, py: real, gx: real, gy: real)
    ensures HitBoxes(px, py, gx, gy) <==>
      -17.0 < px - gx < 17.0 && -17.0 < py - gy < 17.0
  {
  }

  /** Math.round: halves round toward +infinity. */
  function Round(v: real): int {
    (v + 0.5).Floor
  }

  function SqNorm(dx: real, dy: real): real {
    dx * dx + dy * dy
  }

  /** The player's near-centre test: within 2.5 of the nearest point on
      the half-tile lattice (hypot < 2.5, compared squared). */
  predicate PacNearCentre(x: real, y: real) {
    var half := (TILE / 2) as real;
    var cx := (Round(x / half) * (TILE / 2)) as real;
    var cy := (Round(y / half) * (TILE / 2)) as real;
    SqNorm(cx - x, cy - y) < 6.25
  }

  /** The ghost near-centre test as the source writes it: it adds half a
      tile to the ROUNDED tile multiple. */
  predicate GhostNearCentreAsWritten(x: real, y: real) {
    var cx := Centre(Round(x / TILE as real));
    var cy := Centre(Round(y / TILE as real));
    SqNorm(cx - x, cy - y) < 6.25
  }

  /** The ghost near-centre test as intended: within 2.5 of the centre of
      the tile that contains the point. */
  predicate GhostNearCentre(x: real, y: real) {
    var cx := Centre(TileOf(x));
    var cy := Centre(TileOf(y));
    SqNorm(cx - x, cy - y) < 6.25
  }

  lemma SquareNonNegative(v: real)
    ensures v * v >= 0.0
  {
  }

  /** As written, a ghost on a tile-centre row is never near a centre: the
      rounded multiple lands half a tile past it, 22 units away. */
  lemma {:induction false} AsWrittenMissesCentreRows(x: real, row: int)
    ensures !GhostNearCentreAsWritten(x, Centre(row))
  {
    var y := Centre(row);
    assert y / TILE as real == row as real + 0.5;
    assert Round(y / TILE as real) == row + 1;
    assert Centre(Round(y / TILE as real)) - y == 22.0;
    var cx := Centre(Round(x / TILE as real));
    SquareNonNegative(cx - x);
  }

  /** Likewise for a ghost on a tile-centre column. */
  lemma {:induction false} AsWrittenMissesCentreColumns(col: int, y: real)
    ensures !GhostNearCentreAsWritten(Centre(col), y)
  {
    var x := Centre(col);
    assert x / TILE as real == col as real + 0.5;
    assert Round(x / TILE as real) == col + 1;
    assert Centre(Round(x / TILE as real)) - x == 22.0;
    var cy := Centre(Round(y / TILE as real));
    SquareNonNegative(cy - y);
  }

  /** The corrected test accepts every tile centre. */
  lemma {:induction false} CorrectedHitsCentres(col: int, row: int)
    ensures GhostNearCentre(Centre(col), Centre(row))
  {
    assert TileOf(Centre(col)) == col;
    assert TileOf(Centre(row)) == row;
  }
}

=== FILE: session.dfy ===
/** The game session: score, lives, the collectible overlay and its
    remaining count, the play/terminal state with its message, and the
    agents; plus the rule steps that act on it (pellet eating, collisions,
    life loss, respawn, restart, one update, the frame gate and the key
    handler).  React state setters are applied immediately and in order. */
module Game {
  import opened Grid
  import opened Motion
  import opened Agents

  /** The overlay text: none, the loss text, or the cleared-board text. */
  datatype Message = Blank | GameOver | Cleared

  datatype Session = Session(
    grid: Board,
    score: int,
    lives: int,
    pelletsLeft: int,
    playing: bool,
    message: Message,
    pac: Pac,
    ghosts: seq<Ghost>)

  const START_LIVES: int := 3
  const PELLET_POINTS: int := 10
  const POWER_POINTS: int := 50
  const GHOST_POINTS: int := 200

  /** Milliseconds of the reference frame the speeds are given in. */
  const FRAME_MS: real := 1000.0 / 60.0
  /** The longest time step one update ever simulates. */
  const MAX_DT: real := 32.0

  /** The invariant every reachable session keeps. */
  predicate Valid(s: Session) {
    Tallied(s) && Scored(s) && Placed(s)
  }

  /** The score is a non-negative multiple of ten, there are at most three
      lives, and play runs exactly while no message shows, which needs a
      life and a collectible left. */
  predicate Scored(s: Session) {
    && s.score >= 0 && s.score % 10 == 0
    && s.lives <= START_LIVES
    && (s.playing ==> s.lives > 0 && s.pelletsLeft > 0)
    && (s.playing <==> s.message == Blank)
  }

  /** The overlay only lost collectibles of LEVEL, and the counter is the
      number still on it. */
  predicate Tallied(s: Session) {
    Overlay(s.grid) && s.pelletsLeft == Pellets(s.grid)
  }

  /** Pac-Man is inside the field and every one of the four ghosts stands
      on a point the wall test approves. */
  predicate Placed(s: Session) {
    && PacOk(s.pac)
    && |s.ghosts| == |GHOST_SPAWNS|
    && AllOk(s.ghosts)
  }

  predicate AllOk(gs: seq<Ghost>) {
    forall k :: 0 <= k < |gs| ==> GhostOk(gs[k])
  }

  /** A random sample per ghost, each in [0, 1). */
  predicate Samples(rnds: seq<real>) {
    forall k :: 0 <= k < |rnds| ==> 0.0 <= rnds[k] < 1.0
  }

  /** The static layout holds at least one collectible (the power pellet
      at row 1, column 1). */
  lemma LevelHasPellets()
    ensures Pellets(LEVEL) > 0
  {
    PelletsZero(LEVEL);
    Landmarks();
  }

  /** The session as the component mounts it: full board, counter set by
      the mount-time count, three lives, agents at their spawns. */
  function Initial(): (s: Session)
    ensures Valid(s)
    ensures s.pelletsLeft > 0 && s.playing
  {
    LevelHasPellets();
    LevelOverlay();
    SpawnsOk();
    Session(LEVEL, 0, START_LIVES, Pellets(LEVEL), true, Blank, PAC_SPAWN, GHOST_SPAWNS)
  }

  // ---------------------------------------------------------------------
  // Terminal states, respawn, restart

  /** gameOver: the loss message, play halted; nothing else changes. */
  function EndGame(s: Session): (r: Session)
    ensures !r.playing && r.message == GameOver
    ensures r.grid == s.grid && r.score == s.score && r.lives == s.lives
    ensures r.pelletsLeft == s.pelletsLeft && r.pac == s.pac && r.ghosts == s.ghosts
  {
    s.(message := GameOver, playing := false)
  }

  /** win: the cleared-board message, play halted; nothing else changes. */
  function Win(s: Session): (r: Session)
    ensures !r.playing && r.message == Cleared
    ensures r.grid == s.grid && r.score == s.score && r.lives == s.lives
    ensures r.pelletsLeft == s.pelletsLeft && r.pac == s.pac && r.ghosts == s.ghosts
  {
    s.(message := Cleared, playing := false)
  }

  /** resetPositions: every agent back to its spawn; the board, score,
      lives and play state are untouched. */
  function ResetPositions(s: Session): (r: Session)
    ensures r.pac == PAC_SPAWN && r.ghosts == GHOST_SPAWNS
    ensures r.grid == s.grid && r.score == s.score && r.lives == s.lives
    ensures r.pelletsLeft == s.pelletsLeft && r.playing == s.playing && r.message == s.message
    ensures Valid(s) ==> Valid(r)
  {
    SpawnsOk();
    s.(pac := PAC_SPAWN, ghosts := GHOST_SPAWNS)
  }

  /** loseLife: one life fewer; the game ends when none is left, otherwise
      every agent respawns and play goes on. */
  function LoseLife(s: Session): (r: Session)
    ensures r.lives == s.lives - 1
    ensures r.grid == s.grid && r.score == s.score && r.pelletsLeft == s.pelletsLeft
    ensures r.lives <= 0 ==>
      !r.playing && r.message == GameOver && r.pac == s.pac && r.ghosts == s.ghosts
    ensures r.lives > 0 ==>
      r.pac == PAC_SPAWN && r.ghosts == GHOST_SPAWNS && r.playing == s.playing && r.message == s.message
    ensures Valid(s) ==> Valid(r)
  {
    var t := s.(lives := s.lives - 1);
    if t.lives <= 0 then EndGame(t) else ResetPositions(t)
  }

  /** restart: the mount state again, whatever the session was. */
  function Restart(s: Session): (r: Session)
    ensures r == Initial()
    ensures Valid(r)
  {
    ResetPositions(Session(LEVEL, 0, START_LIVES, Pellets(LEVEL), true, Blank, s.pac, s.ghosts))
  }

  /** Restarting forgets the prior session completely. */
  lemma RestartForgets(s: Session, t: Session)
    ensures Restart(s) == Restart(t)
    ensures Restart(s).grid == LEVEL && Restart(s).score == 0 && Restart(s).lives == START_LIVES
    ensures Restart(s).pelletsLeft == Pellets(LEVEL) && Restart(s).playing && Restart(s).message == Blank
    ensures Restart(s).pac == PAC_SPAWN && Restart(s).ghosts == GHOST_SPAWNS
  {
  }

  // ---------------------------------------------------------------------
  // Eating

  /** Every ghost's countdown set to the full fright time (not added). */
  function Frighten(gs: seq<Ghost>): (r: seq<Ghost>)
    ensures |r| == |gs|
    ensures forall k :: 0 <= k < |gs| ==> r[k] == gs[k].(frightened := FRIGHT_FRAMES)
  {
    seq(|gs|, k requires 0 <= k < |gs| => gs[k].(frightened := FRIGHT_FRAMES))
  }

  /** eatPellet at the tile containing (px, py).  The source does not check
      bounds, so the caller must supply an in-grid point. */
  function EatPellet(s: Session, px: real, py: real): (r: Session)
    requires InGrid(TileOf(py), TileOf(px))
    ensures var row, col := TileOf(py), TileOf(px);
      s.grid[row][col] == PELLET ==>
        r.grid == s.grid[row := s.grid[row][col := EMPTY]] &&
        r.pelletsLeft == s.pelletsLeft - 1 && r.score == s.score + PELLET_POINTS &&
        r.ghosts == s.ghosts
    ensures var row, col := TileOf(py), TileOf(px);
      s.grid[row][col] == POWER ==>
        r.grid == s.grid[row := s.grid[row][col := EMPTY]] &&
        r.pelletsLeft == s.pelletsLeft - 1 && r.score == s.score + POWER_POINTS &&
        |r.ghosts| == |s.ghosts| &&
        forall k :: 0 <= k < |s.ghosts| ==> r.ghosts[k] == s.ghosts[k].(frightened := FRIGHT_FRAMES)
    ensures !IsPellet(s.grid[TileOf(py)][TileOf(px)]) ==>
      r.grid == s.grid && r.pelletsLeft == s.pelletsLeft && r.score == s.score && r.ghosts == s.ghosts
    ensures r.lives == s.lives && r.pac == s.pac
    ensures r.playing <==> s.playing && r.pelletsLeft > 0
    ensures r.message == if r.pelletsLeft <= 0 then Cleared else s.message
  {
    var row, col := TileOf(py), TileOf(px);
    var cleared := s.grid[row := s.grid[row][col := EMPTY]];
    var t :=
      if s.grid[row][col] == PELLET then
        s.(grid := cleared, pelletsLeft := s.pelletsLeft - 1, score := s.score + PELLET_POINTS)
      else if s.grid[row][col] == POWER then
        s.(grid := cleared, pelletsLeft := s.pelletsLeft - 1, score := s.score + POWER_POINTS,
           ghosts := Frighten(s.ghosts))
      else s;
    if t.pelletsLeft <= 0 then Win(t) else t
  }

  /** Eating keeps the invariant: the cleared cell held a collectible of
      LEVEL, the counter falls with the count, and both rewards are
      multiples of ten. */
  lemma EatPelletValid(s: Session, px: real, py: real)
    requires InGrid(TileOf(py), TileOf(px))
    ensures Valid(s) ==> Valid(EatPellet(s, px, py))
  {
    if Valid(s) {
      EatTallied(s, px, py);
      EatScored(s, px, py);
      EatPlaced(s, px, py);
    }
  }

  lemma EatScored(s: Session, px: real, py: real)
    requires InGrid(TileOf(py), TileOf(px))
    requires Scored(s)
    ensures Scored(EatPellet(s, px, py))
  {
  }

  lemma EatTallied(s: Session, px: real, py: real)
    requires InGrid(TileOf(py), TileOf(px))
    requires Tallied(s)
    ensures Tallied(EatPellet(s, px, py))
  {
    var row, col := TileOf(py), TileOf(px);
    if IsPellet(s.grid[row][col]) {
      PelletsCleared(s.grid, row, col);
      OverlayCleared(s.grid, row, col);
    }
  }

  lemma EatPlaced(s: Session, px: real, py: real)
    requires InGrid(TileOf(py), TileOf(px))
    requires Placed(s)
    ensures Placed(EatPellet(s, px, py))
  {
    var r := EatPellet(s, px, py);
    forall k | 0 <= k < |r.ghosts|
      ensures GhostOk(r.ghosts[k])
    {
      assert GhostOk(s.ghosts[k]);
    }
  }

  // ---------------------------------------------------------------------
  // The ghost pass

  /** A ghost's new state is written back unless a respawn earlier in this
      pass replaced the ghost list (the source keeps iterating over the old
      list, whose objects are then no longer displayed or stored). */
  function Store(s: Session, i: nat, g: Ghost, detached: bool): (r: Session)
    requires detached || i < |s.ghosts|
    ensures detached ==> r == s
    ensures !detached ==> r == s.(ghosts := s.ghosts[i := g])
  {
    if detached then s else s.(ghosts := s.ghosts[i := g])
  }

  /** The state of the pass after one ghost: the session and whether the
      ghost list has been replaced by a respawn. */
  datatype Pass = Pass(s: Session, detached: bool)

  /** The collision rule for ghost i, already moved to g, against the
      frame's Pac-Man. */
  function Encounter(s: Session, pac: Pac, i: nat, g: Ghost, detached: bool): (r: Pass)
    requires detached || i < |s.ghosts|
    ensures r.s.grid == s.grid && r.s.pelletsLeft == s.pelletsLeft
    ensures detached ==> r.detached
    ensures !r.detached ==> |r.s.ghosts| == |s.ghosts|
    ensures !HitBoxes(pac.x, pac.y, g.x, g.y) ==>
      r == Pass(Store(s, i, g, detached), detached)
    ensures HitBoxes(pac.x, pac.y, g.x, g.y) && g.frightened > 0 ==>
      r.s.score == s.score + GHOST_POINTS && r.s.lives == s.lives &&
      r == Pass(Store(s.(score := s.score + GHOST_POINTS), i, GHOST_HOUSE, detached), detached)
    ensures HitBoxes(pac.x, pac.y, g.x, g.y) && g.frightened == 0 ==>
      r.s.lives == s.lives - 1 && r.s.score == s.score &&
      (r.s.lives <= 0 ==> !r.s.playing && r.s.message == GameOver && r.detached == detached) &&
      (r.s.lives > 0 ==> r.detached && r.s.pac == PAC_SPAWN && r.s.ghosts == GHOST_SPAWNS &&
                         r.s.playing == s.playing)
  {
    if !HitBoxes(pac.x, pac.y, g.x, g.y) then
      Pass(Store(s, i, g, detached), detached)
    else if g.frightened > 0 then
      Pass(Store(s.(score := s.score + GHOST_POINTS), i, GHOST_HOUSE, detached), detached)
    else
      var t := LoseLife(Store(s, i, g, detached));
      Pass(t, detached || t.lives > 0)
  }

  /** Writing back an approved ghost keeps the invariant. */
  lemma StoreValid(s: Session, i: nat, g: Ghost, detached: bool)
    requires detached || i < |s.ghosts|
    requires Valid(s) && GhostOk(g)
    ensures Valid(Store(s, i, g, detached))
  {
  }

  /** A collision keeps the invariant when the moved ghost is approved:
      the points for a ghost are a multiple of ten, and a respawn puts
      every agent on an approved spawn. */
  lemma EncounterValid(s: Session, pac: Pac, i: nat, g: Ghost, detached: bool)
    requires detached || i < |s.ghosts|
    ensures Valid(s) && GhostOk(g) ==> Valid(Encounter(s, pac, i, g, detached).s)
  {
    if Valid(s) && GhostOk(g) {
      var e := Encounter(s, pac, i, g, detached);
      if !HitBoxes(pac.x, pac.y, g.x, g.y) {
        StoreValid(s, i, g, detached);
      } else if g.frightened > 0 {
        BountyValid(s, i, detached);
      } else {
        CaughtValid(s, i, g, detached);
        assert e.s == LoseLife(Store(s, i, g, detached));
      }
    }
  }

  /** Eating a frightened ghost: 200 points, the ghost back in the house. */
  lemma BountyValid(s: Session, i: nat, detached: bool)
    requires detached || i < |s.ghosts|
    requires Valid(s)
    ensures Valid(Store(s.(score := s.score + GHOST_POINTS), i, GHOST_HOUSE, detached))
  {
    SpawnsOk();
    Rewarded(s, GHOST_POINTS);
    StoreValid(s.(score := s.score + GHOST_POINTS), i, GHOST_HOUSE, detached);
  }

  /** Adding a multiple of ten to the score keeps the invariant. */
  lemma Rewarded(s: Session, points: int)
    requires Valid(s) && points >= 0 && points % 10 == 0
    ensures Valid(s.(score := s.score + points))
  {
  }

  /** Being caught: the moved ghost is stored, then a life is lost. */
  lemma CaughtValid(s: Session, i: nat, g: Ghost, detached: bool)
    requires detached || i < |s.ghosts|
    requires Valid(s) && GhostOk(g)
    ensures Valid(LoseLife(Store(s, i, g, detached)))
  {
    StoreValid(s, i, g, detached);
  }

  /** The ghost loop from index i: each ghost of the list as it stood when
      the loop began (`olds`) moves and meets the frame's Pac-Man. */
  function PassFrom(s: Session, pac: Pac, olds: seq<Ghost>, i: nat, detached: bool,
                    scale: real, rnds: seq<real>, test: CentreTest): (r: Session)
    requires i <= |olds| && |rnds| == |olds| && Samples(rnds)
    requires detached || |s.ghosts| == |olds|
    ensures r.grid == s.grid && r.pelletsLeft == s.pelletsLeft
    ensures r.score >= s.score && r.lives <= s.lives
    ensures r.playing ==> s.playing
    ensures r.pac == s.pac || r.pac == PAC_SPAWN
    ensures Valid(s) && AllOk(olds) ==> Valid(r)
    ensures i == |olds| ==> r == s
    decreases |olds| - i
  {
    if i == |olds| then s
    else
      var g := GhostFrame(olds[i], pac.x, pac.y, scale, rnds[i], test);
      assert GhostOk(olds[i]) ==> GhostOk(g);
      var e := Encounter(s, pac, i, g, detached);
      EncounterValid(s, pac, i, g, detached);
      PassFrom(e.s, pac, olds, i + 1, e.detached, scale, rnds, test)
  }

  // ---------------------------------------------------------------------
  // One update, the frame gate, key presses

  /** An in-field point lies in a tile of the grid. */
  lemma FieldTiles(x: real, y: real)
    requires InField(x, y)
    ensures InGrid(TileOf(y), TileOf(x))
  {
  }

  /** The second stage of an update: Pac-Man, already stepped to `p`, eats
      at his new position.  Eating never moves him. */
  function MoveAndEat(s: Session, p: Pac): (t: Session)
    requires Valid(s) && PacOk(p)
    ensures InGrid(TileOf(p.y), TileOf(p.x)) && t == EatPellet(s.(pac := p), p.x, p.y)
    ensures Valid(t) && t.pac == p
    ensures t.score >= s.score && t.lives == s.lives && t.pelletsLeft <= s.pelletsLeft
    ensures t.playing ==> s.playing
  {
    FieldTiles(p.x, p.y);
    Moved(s, p);
    EatPelletValid(s.(pac := p), p.x, p.y);
    EatPellet(s.(pac := p), p.x, p.y)
  }

  /** One update of dt milliseconds: Pac-Man's step, eating, then the ghost
      pass against the moved Pac-Man.  rnds holds the random sample each
      ghost would draw, and `test` picks the ghosts' near-centre test (the
      source's loop runs AsWritten). */
  function Update(s: Session, dt: real, rnds: seq<real>, test: CentreTest): (r: Session)
    requires Valid(s) && |rnds| == |s.ghosts| && Samples(rnds)
    ensures Valid(r)
    ensures r.score >= s.score && r.lives <= s.lives
    ensures r.playing ==> s.playing
    ensures r.pelletsLeft <= s.pelletsLeft
    ensures r.pac == PAC_SPAWN || CanMove(r.pac.x, r.pac.y) ||
            (r.pac.x == Wrap(s.pac.x, s.pac.y) && r.pac.y == s.pac.y)
  {
    var p := PacStep(s.pac, SPEED * (dt / FRAME_MS));
    var t := MoveAndEat(s, p);
    PassFrom(t, p, t.ghosts, 0, false, dt / FRAME_MS, rnds, test)
  }

  /** Moving Pac-Man within the field keeps the invariant. */
  lemma Moved(s: Session, p: Pac)
    requires Valid(s) && PacOk(p)
    ensures Valid(s.(pac := p))
  {
  }

  /** Math.min(32, now - last): the simulated step never exceeds 32 ms.
      Nothing bounds it from below: a frame timestamp earlier than `last`
      gives a negative step. */
  function FrameDt(last: real, now: real): (dt: real)
    ensures dt <= MAX_DT && dt <= now - last
    ensures now - last < MAX_DT ==> dt == now - last
    ensures now - last >= MAX_DT ==> dt == MAX_DT
  {
    if now - last < MAX_DT then now - last else MAX_DT
  }

  /** One animation frame at time `now`, the previous one having been at
      `last`: an update runs only while playing. */
  function Frame(s: Session, last: real, now: real, rnds: seq<real>): (r: Session)
    requires Valid(s) && |rnds| == |s.ghosts| && Samples(rnds)
    ensures Valid(r)
    ensures s.playing ==> r == Update(s, FrameDt(last, now), rnds, AsWritten)
    ensures !s.playing ==> r == s
    ensures r.score >= s.score && r.lives <= s.lives
  {
    if s.playing then Update(s, FrameDt(last, now), rnds, AsWritten) else s
  }

  /** The keys that queue a direction. */
  const DIRECTIONS: map<string, Vec> := map[
    "ArrowUp" := UP, "ArrowDown" := DOWN, "ArrowLeft" := LEFT, "ArrowRight" := RIGHT,
    "w" := UP, "s" := DOWN, "a" := LEFT, "d" := RIGHT]

  predicate IsRestartKey(key: string) {
    key == "Enter" || key == " "
  }

  /** A direction key only queues the direction. */
  function Queue(s: Session, key: string): (r: Session)
    ensures key in DIRECTIONS ==> r.pac.nextDir == DIRECTIONS[key]
    ensures key !in DIRECTIONS ==> r == s
    ensures r.(pac := s.pac) == s && r.pac.(nextDir := s.pac.nextDir) == s.pac
  {
    if key in DIRECTIONS then s.(pac := s.pac.(nextDir := DIRECTIONS[key])) else s
  }

  /** The key handler with restart reachable: a direction key queues its
      direction, and Enter or Space restarts a finished game. */
  function Press(s: Session, key: string): (r: Session)
    ensures key in DIRECTIONS ==> r == Queue(s, key)
    ensures !s.playing && IsRestartKey(key) ==> r == Initial()
    ensures key !in DIRECTIONS && !(!s.playing && IsRestartKey(key)) ==> r == s
    ensures Valid(s) ==> Valid(r)
  {
    var t := Queue(s, key);
    if !t.playing && IsRestartKey(key) then Restart(t) else t
  }

  /** What the source's handler does: `restart` is declared inside the
      animation effect, out of scope of the handler, so the call throws. */
  /** The handler's outcome: the session after it returns, or the error it
      throws together with the session as the throw leaves it. */
  datatype Handled = Handled(s: Session) | ReferenceError(s: Session, name: string)

  function PressAsWritten(s: Session, key: string): (r: Handled)
    ensures !s.playing && IsRestartKey(key) ==> r == ReferenceError(s, "restart")
    ensures !(!s.playing && IsRestartKey(key)) ==> r == Handled(Press(s, key))
    ensures r.s == if r.ReferenceError? then s else Press(s, key)
  {
    var t := Queue(s, key);
    if !t.playing && IsRestartKey(key) then ReferenceError(t, "restart") else Handled(t)
  }

  // ---------------------------------------------------------------------
  // The game as written never gets going

  /** Pac-Man at the spawn point with a full board, no score, all lives and
      play running. */
  predicate Frozen(s: Session) {
    && Valid(s)
    && s.grid == LEVEL
    && s.pac.x == PAC_SPAWN.x && s.pac.y == PAC_SPAWN.y
    && s.score == 0 && s.lives == START_LIVES && s.playing
  }

  lemma InitialFrozen()
    ensures Frozen(Initial())
  {
  }

  /** With Pac-Man at the spawn no ghost touches him, so the pass changes
      nothing but the ghosts. */
  lemma {:induction false} PassQuiet(s: Session, pac: Pac, olds: seq<Ghost>, i: nat, detached: bool,
                                     scale: real, rnds: seq<real>, test: CentreTest)
    requires i <= |olds| && |rnds| == |olds| && Samples(rnds)
    requires detached || |s.ghosts| == |olds|
    requires pac.x == PAC_SPAWN.x && pac.y == PAC_SPAWN.y
    requires AllOk(olds)
    ensures var r := PassFrom(s, pac, olds, i, detached, scale, rnds, test);
      r.score == s.score && r.lives == s.lives && r.playing == s.playing &&
      r.message == s.message && r.pac == s.pac
    decreases |olds| - i
  {
    if i < |olds| {
      var g := GhostFrame(olds[i], pac.x, pac.y, scale, rnds[i], test);
      QuietStep(s, pac, olds, i, detached, scale, rnds, test);
      PassQuiet(Store(s, i, g, detached), pac, olds, i + 1, detached, scale, rnds, test);
    }
  }

  /** The ghosts of a pass that wrote `moved[k]` for every k from i on:
      earlier ones are as in s, later ones as moved. */
  predicate StoredFrom(r: seq<Ghost>, s: seq<Ghost>, moved: seq<Ghost>, i: nat) {
    && |r| == |s| == |moved|
    && (forall k :: 0 <= k < i && k < |r| ==> r[k] == s[k])
    && (forall k :: i <= k < |r| ==> r[k] == moved[k])
  }

  /** Writing moved[i] at index i, then the rest, writes everything from i. */
  lemma StoredShift(r: seq<Ghost>, s: seq<Ghost>, moved: seq<Ghost>, i: nat)
    requires i < |s| == |moved|
    requires StoredFrom(r, s[i := moved[i]], moved, i + 1)
    ensures StoredFrom(r, s, moved, i)
  {
  }

  /** With Pac-Man at the spawn the pass stores every ghost's frame from
      index i on and leaves the earlier ones alone; once the ghost list has
      been replaced nothing changes. */
  lemma {:induction false} PassStores(s: Session, pac: Pac, olds: seq<Ghost>, i: nat, detached: bool,
                                      scale: real, rnds: seq<real>, test: CentreTest, moved: seq<Ghost>)
    requires i <= |olds| && |rnds| == |olds| && Samples(rnds)
    requires detached || |s.ghosts| == |olds|
    requires pac.x == PAC_SPAWN.x && pac.y == PAC_SPAWN.y
    requires AllOk(olds)
    requires |moved| == |olds|
    requires forall k :: i <= k < |olds| ==> moved[k] == GhostFrame(olds[k], pac.x, pac.y, scale, rnds[k], test)
    ensures var r := PassFrom(s, pac, olds, i, detached, scale, rnds, test);
      && (detached ==> r == s)
      && (!detached ==> StoredFrom(r.ghosts, s.ghosts, moved, i))
    decreases |olds| - i
  {
    if i < |olds| {
      var g := GhostFrame(olds[i], pac.x, pac.y, scale, rnds[i], test);
      QuietStep(s, pac, olds, i, detached, scale, rnds, test);
      PassStores(Store(s, i, g, detached), pac, olds, i + 1, detached, scale, rnds, test, moved);
      if !detached {
        var r := PassFrom(s, pac, olds, i, detached, scale, rnds, test);
        StoredShift(r.ghosts, s.ghosts, moved, i);
      }
    }
  }

  /** One quiet turn of the ghost loop: the moved ghost is only stored. */
  lemma QuietStep(s: Session, pac: Pac, olds: seq<Ghost>, i: nat, detached: bool,
                  scale: real, rnds: seq<real>, test: CentreTest)
    requires i < |olds| && |rnds| == |olds| && Samples(rnds)
    requires detached || |s.ghosts| == |olds|
    requires pac.x == PAC_SPAWN.x && pac.y == PAC_SPAWN.y
    requires GhostOk(olds[i])
    ensures var g := GhostFrame(olds[i], pac.x, pac.y, scale, rnds[i], test);
      PassFrom(s, pac, olds, i, detached, scale, rnds, test)
        == PassFrom(Store(s, i, g, detached), pac, olds, i + 1, detached, scale, rnds, test)
  {
    var g := GhostFrame(olds[i], pac.x, pac.y, scale, rnds[i], test);
    QuietEncounter(s, pac, i, g, detached);
    PassStep(s, pac, olds, i, detached, scale, rnds, test);
  }

  /** One turn of the ghost loop. */
  lemma PassStep(s: Session, pac: Pac, olds: seq<Ghost>, i: nat, detached: bool,
                 scale: real, rnds: seq<real>, test: CentreTest)
    requires i < |olds| && |rnds| == |olds| && Samples(rnds)
    requires detached || |s.ghosts| == |olds|
    ensures var e := Encounter(s, pac, i, GhostFrame(olds[i], pac.x, pac.y, scale, rnds[i], test), detached);
      PassFrom(s, pac, olds, i, detached, scale, rnds, test)
        == PassFrom(e.s, pac, olds, i + 1, e.detached, scale, rnds, test)
  {
  }

  /** An approved ghost never meets Pac-Man at the spawn. */
  lemma QuietEncounter(s: Session, pac: Pac, i: nat, g: Ghost, detached: bool)
    requires detached || i < |s.ghosts|
    requires pac.x == PAC_SPAWN.x && pac.y == PAC_SPAWN.y && GhostOk(g)
    ensures Encounter(s, pac, i, g, detached) == Pass(Store(s, i, g, detached), detached)
  {
    NoHitAtSpawn(g.x, g.y);
  }

  /** An update of at most 32 ms either way keeps a frozen session frozen,
      under either near-centre test: Pac-Man cannot leave the spawn, the
      wall tile under him holds no pellet, and no ghost can reach him. */
  lemma UpdateFrozen(s: Session, dt: real, rnds: seq<real>, test: CentreTest)
    requires Frozen(s) && -MAX_DT <= dt <= MAX_DT && |rnds| == |s.ghosts| && Samples(rnds)
    ensures Frozen(Update(s, dt, rnds, test))
  {
    var scale := dt / FRAME_MS;
    ShortStep(dt);
    PacStuckAtSpawn(s.pac, SPEED * scale);
    var p := PacStep(s.pac, SPEED * scale);
    NothingToEatAtSpawn(s, p);
    var t := MoveAndEat(s, p);
    PassQuiet(t, p, t.ghosts, 0, false, scale, rnds, test);
    UpdateStages(s, dt, rnds, test);
  }

  /** In a frozen session an update moves every ghost by its own frame
      against Pac-Man at the spawn, and stores them all. */
  lemma FrozenGhostsMove(s: Session, dt: real, rnds: seq<real>, test: CentreTest)
    requires Frozen(s) && -MAX_DT <= dt <= MAX_DT && |rnds| == |s.ghosts| && Samples(rnds)
    ensures var r := Update(s, dt, rnds, test);
      && |r.ghosts| == |s.ghosts|
      && forall k :: 0 <= k < |s.ghosts| ==>
           r.ghosts[k] == GhostFrame(s.ghosts[k], PAC_SPAWN.x, PAC_SPAWN.y, dt / FRAME_MS, rnds[k], test)
  {
    var scale := dt / FRAME_MS;
    ShortStep(dt);
    PacStuckAtSpawn(s.pac, SPEED * scale);
    var p := PacStep(s.pac, SPEED * scale);
    NothingToEatAtSpawn(s, p);
    var t := MoveAndEat(s, p);
    QuietPassStores(t, p, scale, rnds, test);
    UpdateStages(s, dt, rnds, test);
  }

  /** A whole pass with Pac-Man at the spawn stores every ghost's frame. */
  lemma QuietPassStores(t: Session, p: Pac, scale: real, rnds: seq<real>, test: CentreTest)
    requires Valid(t) && |rnds| == |t.ghosts| && Samples(rnds)
    requires p.x == PAC_SPAWN.x && p.y == PAC_SPAWN.y
    ensures var r := PassFrom(t, p, t.ghosts, 0, false, scale, rnds, test);
      && |r.ghosts| == |t.ghosts|
      && forall k :: 0 <= k < |t.ghosts| ==>
           r.ghosts[k] == GhostFrame(t.ghosts[k], PAC_SPAWN.x, PAC_SPAWN.y, scale, rnds[k], test)
  {
    var moved := seq(|t.ghosts|, k requires 0 <= k < |t.ghosts| =>
      GhostFrame(t.ghosts[k], PAC_SPAWN.x, PAC_SPAWN.y, scale, rnds[k], test));
    PassStores(t, p, t.ghosts, 0, false, scale, rnds, test, moved);
  }

  /** Update is Pac-Man's step, then eating at his new position, then the
      ghost pass over the ghost list as it stood after eating, against the
      moved Pac-Man. */
  lemma UpdateStages(s: Session, dt: real, rnds: seq<real>, test: CentreTest)
    requires Valid(s) && |rnds| == |s.ghosts| && Samples(rnds)
    ensures var p := PacStep(s.pac, SPEED * (dt / FRAME_MS));
      PacOk(p) &&
      var t := MoveAndEat(s, p);
      |rnds| == |t.ghosts| &&
      Update(s, dt, rnds, test) == PassFrom(t, p, t.ghosts, 0, false, dt / FRAME_MS, rnds, test)
  {
  }

  /** A step of at most 32 ms either way moves Pac-Man by at most 4.224,
      under half a tile. */
  lemma ShortStep(dt: real)
    requires -MAX_DT <= dt <= MAX_DT
    ensures -4.224 <= SPEED * (dt / FRAME_MS) <= 4.224
  {
    assert dt / FRAME_MS == dt * 0.06;
  }

  /** The spawn tile is a wall, so eating there changes nothing. */
  lemma NothingToEatAtSpawn(s: Session, p: Pac)
    requires Valid(s) && s.grid == LEVEL && s.playing && PacOk(p)
    requires p.x == PAC_SPAWN.x && p.y == PAC_SPAWN.y
    ensures var t := MoveAndEat(s, p);
      t.grid == s.grid && t.score == s.score && t.playing && t.ghosts == s.ghosts
  {
    assert TileOf(p.y) == 15 && TileOf(p.x) == 9;
    Landmarks();
    LevelHasPellets();
    assert Valid(s.(pac := p));
  }

  /** Hence every frame and every key press leaves it frozen: the board is
      never cleared, the score stays 0 and no life is ever lost. */
  lemma FrameFrozen(s: Session, last: real, now: real, rnds: seq<real>)
    requires Frozen(s) && last - now <= MAX_DT && |rnds| == |s.ghosts| && Samples(rnds)
    ensures Frozen(Frame(s, last, now, rnds))
  {
    UpdateFrozen(s, FrameDt(last, now), rnds, AsWritten);
  }

  lemma PressFrozen(s: Session, key: string)
    requires Frozen(s)
    ensures Frozen(Press(s, key))
  {
  }

  // ---------------------------------------------------------------------
  // As written, the ghosts never leave their centre lines

  predicate AllOnCentreLines(gs: seq<Ghost>) {
    forall k :: 0 <= k < |gs| ==> OnCentreLine(gs[k])
  }

  /** The mount state has every ghost on a centre line. */
  lemma InitialOnCentreLines()
    ensures AllOnCentreLines(Initial().ghosts)
  {
    SpawnsOnCentreLines();
  }

  /** Every collision outcome keeps the ghost list on centre lines when the
      moved ghost is on one: the house and the spawns are. */
  lemma EncounterOnLines(s: Session, pac: Pac, i: nat, g: Ghost, detached: bool)
    requires detached || i < |s.ghosts|
    requires AllOnCentreLines(s.ghosts) && OnCentreLine(g)
    ensures AllOnCentreLines(Encounter(s, pac, i, g, detached).s.ghosts)
  {
    SpawnsOnCentreLines();
  }

  /** The as-written ghost pass keeps every ghost on a centre line. */
  lemma {:induction false} PassOnLines(s: Session, pac: Pac, olds: seq<Ghost>, i: nat, detached: bool,
                                       scale: real, rnds: seq<real>)
    requires i <= |olds| && |rnds| == |olds| && Samples(rnds)
    requires detached || |s.ghosts| == |olds|
    requires AllOk(olds) && AllOnCentreLines(olds) && AllOnCentreLines(s.ghosts)
    ensures AllOnCentreLines(PassFrom(s, pac, olds, i, detached, scale, rnds, AsWritten).ghosts)
    decreases |olds| - i
  {
    if i < |olds| {
      var g := GhostFrame(olds[i], pac.x, pac.y, scale, rnds[i], AsWritten);
      AsWrittenNeverSteers(olds[i], pac.x, pac.y, scale, rnds[i]);
      var e := Encounter(s, pac, i, g, detached);
      EncounterOnLines(s, pac, i, g, detached);
      PassStep(s, pac, olds, i, detached, scale, rnds, AsWritten);
      PassOnLines(e.s, pac, olds, i + 1, e.detached, scale, rnds);
    }
  }

  /** An update under the source's near-centre test keeps every ghost on a
      centre line; with InitialOnCentreLines and AsWrittenNeverSteers, no
      ghost of the game as written ever turns onto a cross street. */
  lemma UpdateKeepsCentreLines(s: Session, dt: real, rnds: seq<real>)
    requires Valid(s) && |rnds| == |s.ghosts| && Samples(rnds) && AllOnCentreLines(s.ghosts)
    ensures AllOnCentreLines(Update(s, dt, rnds, AsWritten).ghosts)
  {
    UpdateStages(s, dt, rnds, AsWritten);
    var p := PacStep(s.pac, SPEED * (dt / FRAME_MS));
    var t := MoveAndEat(s, p);
    assert AllOnCentreLines(t.ghosts) by {
      forall k | 0 <= k < |t.ghosts|
        ensures OnCentreLine(t.ghosts[k])
      {
        assert OnCentreLine(s.ghosts[k]);
      }
    }
    PassOnLines(t, p, t.ghosts, 0, false, dt / FRAME_MS, rnds);
  }

  /** Every frame of the loop keeps the ghosts on centre lines. */
  lemma FrameKeepsCentreLines(s: Session, last: real, now: real, rnds: seq<real>)
    requires Valid(s) && |rnds| == |s.ghosts| && Samples(rnds) && AllOnCentreLines(s.ghosts)
    ensures AllOnCentreLines(Frame(s, last, now, rnds).ghosts)
  {
    if s.playing {
      UpdateKeepsCentreLines(s, FrameDt(last, now), rnds);
    }
  }
}
